=== FILE: README.md ===
# NSE stock data: simulated market and fetcher post-processing

This project models the core of the ATS NSE Stock Suite in Dafny. It covers two parts.

- **The mock market generator (`MockNSEData`).** This is a fixed, ordered table of 20 NSE stocks. From it the generator builds:
  - quotes, from one Gaussian price move per quote;
  - day-by-day OHLCV histories, where each day opens at the previous close;
  - a gainers/losers ranking over the first `2 * count` rows;
  - a two-index market summary;
  - a portfolio that silently skips unknown symbols.
- **The pure post-processing of `NSEDataFetcher`.** This is what the connectors do with a response once it has been decoded:
  - the Yahoo Finance quote and history connectors, with their `.NS` suffix rule, change arithmetic and bar assembly from parallel arrays;
  - the Alpha Vantage quote connector;
  - the live gainers/losers over a sample of 15 symbols;
  - the `get_nse_indices` map.

Modelling choices:

- Every random draw is a parameter, and a `Valid()` predicate gives it the range the source draws it from:
  - `gauss(0, sigma)` is a standard deviate `z`, scaled as `sigma * z` (`MockQuote.Deviate`);
  - `uniform(a, b)` is a real in `[a, b]`;
  - `randint(a, b)` is an integer in `[a, b]`.
- `round(x, 2)` is `Rounding.Round2`, which rounds half up to the cent. Prices are reals.
- The HTTP call is a function parameter `fetch`, from the request (symbol and range, or symbol and key) to a decoded body or a transport failure.
- JSON keys that are missing, `null` or present are kept apart (`Values.Field`), because the connectors treat each differently.
- Each exception the connectors catch becomes a `Values.Fault` kind. The range error of `datetime.fromtimestamp` is a `ValueError`, whichever exception Python picks for an extreme timestamp (see "## Left out").
- Python's `str.replace`, `str.upper`, `s[:n]` (including negative `n`) and stable `list.sort` are modelled by `Text.RemoveAll`, `Text.Upper`, `Sorting.Take` and `Sorting.SortBy`.

The modules follow the program's structure:

- `Registry`: the table and the symbol lookup.
- `MockQuote`, `MockHistory`, `MockMarket`: the generator.
- `YahooFinance`, `AlphaVantage`, `LiveMarket`: the fetcher.
- `Values`, `Text`, `Rounding`, `Sorting`: the Python semantics these rely on.

Behaviour of the generator worth knowing, which the model keeps:

- The portfolio skips unknown symbols instead of failing whole.
- Nothing is seeded from the symbol: every draw is independent of the name asked for.
- There is no day-range check: `days <= 0` gives an empty series.
- There is no price floor and no volatility clamping.
- Ties in the rankings keep table order, because the sort is stable. They are not broken by symbol name.

## Model

| member | source | states |
|---|---|---|
| Registry.StocksWellFormed | mock_nse_data.py:24-45 | every row has a positive base price on the cent grid, a volatility strictly between 0 and 1, and a non-empty upper-case key |
| Registry.Lookup | mock_nse_data.py:81-83 | a symbol is found exactly when its cleaned form (every `.NS` removed, then upper-cased) is a table key, and the row found has that key |
| Registry.KeysResolve | mock_nse_data.py:81-83 | every key, bare or with `.NS` appended, cleans back to itself and is found |
| Registry.DottedNotKey | mock_nse_data.py:24-45 | no name containing a dot is ever a key |
| Registry.LowerCaseSuffixNotStripped | mock_nse_data.py:81-83 | only the upper-case suffix is stripped: `reliance.ns` cleans to `RELIANCE.NS` and is not found |
| Registry.InnerSuffixStripped | mock_nse_data.py:81 | every `.NS` is removed, not only a trailing one: `TC.NSS` resolves to the TCS row |
| Text.NatToStringValue | mock_nse_data.py:165 | the decimal text of a count reads back as that count and has no leading zero |
| Text.IntToStringInjective | mock_nse_data.py:165 | distinct day counts give distinct period texts |
| Rounding.Round2Monotone | mock_nse_data.py:69 | rounding to the cent never reverses an order |
| Rounding.Round2Fixes | mock_nse_data.py:69 | a value already on the cent grid is left unchanged by rounding |
| Rounding.Round2Error | mock_nse_data.py:69 | rounding moves a value by at most half a cent |
| MockQuote.RoundedMoveConsistent | mock_nse_data.py:64-69 | the rounded change percent and change are within half a cent of the draw and of `base * pct / 100`; the price is exactly base plus change on a grid base; the change has the sign of the change percent |
| MockQuote.PriceMovement | mock_nse_data.py:57-69 | `_calculate_price_movement`, with the `gauss(0, volatility * 100)` draw given as `volatility * 100 * z`: its move is consistent with that one draw (each figure within half a cent of it, the change sign following the percent, everything on the cent grid, and the price base plus change on a cent-grid base) |
| MockQuote.StockQuote | mock_nse_data.py:81-116 | the error record comes back exactly for unknown symbols, with the message, the symbol as given and every table key; a quote carries the cleaned name and the name with `.NS` |
| MockQuote.StockQuoteValid | mock_nse_data.py:64-116 | a known symbol's quote keeps its row's name, sector and base price as previous close; price equals previous close plus change; change and change percent are both within rounding of one draw `gauss(0, volatility * 100)`, so the change is that percentage of the previous close; volume lies in [1,000,000, 50,000,000]; open is within 1% of the base plus rounding; low <= price <= high when price >= 0 |
| MockQuote.SynthesiseValid | mock_nse_data.py:64-109 | the same promises for any well-formed row and any draws in range, with price, change and change percent consistent with the row's own draw |
| MockQuote.LopsidedMoveRejected | mock_nse_data.py:65-66 | a 50% change percent on TCS's 3850.75 close cannot come with a change of 0.01: no single draw rounds to both |
| MockQuote.OpenWithinOnePercent | mock_nse_data.py:107 | the open moves the base by at most 1% plus half a cent and lands on the cent grid |
| MockQuote.HighLowBracket | mock_nse_data.py:108-109 | the stretched high and low bracket a non-negative grid price |
| MockHistory.Walk | mock_nse_data.py:138-161 | one bar per day draw, dated consecutively; the first opens at the start price; each later bar opens at the previous close |
| MockHistory.WalkValid | mock_nse_data.py:145-150 | every bar of a walk from a grid price with valid draws is on the cent grid, has volume in range, and has low <= min(open, close) <= max(open, close) <= high while open and close are non-negative |
| MockHistory.DayBarValid | mock_nse_data.py:145-150 | one day's bar keeps those bounds |
| MockHistory.CloseNonNegative | mock_nse_data.py:146-147 | a close stays non-negative unless the draw moves it down by more than the whole price |
| MockHistory.HistoricalData | mock_nse_data.py:129-170 | the error record comes back exactly for unknown symbols; otherwise there are `max(days, 0)` bars, `count` equals their number, the symbol carries `.NS` and the period reads `<days> days` |
| MockHistory.HistorySeries | mock_nse_data.py:139-161 | a known symbol's bars are dated up to yesterday, one day apart; the first opens at the base price; opens chain to previous closes; every bar keeps the bounds |
| MockMarket.Portfolio | mock_nse_data.py:244-250 | the portfolio is never longer than the symbol list |
| MockMarket.PortfolioNames | mock_nse_data.py:244-250 | the portfolio's names are exactly the known symbols, cleaned, in input order |
| MockMarket.PortfolioComplete | mock_nse_data.py:245-248 | when every symbol is known, nothing is dropped |
| MockMarket.PortfolioValid | mock_nse_data.py:245-248 | every entry is a valid quote of the row its name looks up |
| MockMarket.TopGainersLosersShape | mock_nse_data.py:184-194 | gainers are rising quotes of the ranked rows, largest first; losers are falling ones, largest drop first; at most `count` of each |
| MockMarket.TopGainersLosers | mock_nse_data.py:172-202 | `get_top_gainers_losers`, with the losers corrected to the largest drops (see Findings): the record carries the source, note and clock reading; its lists are stated by TopGainersLosersShape, RankedAreFirstRows, GainersAreTop and WorstLosersAreWorst |
| MockMarket.RankedAreFirstRows | mock_nse_data.py:184-187 | exactly the first `2 * count` table rows are quoted, in table order, none dropped |
| MockMarket.RankIsStablePermutation | mock_nse_data.py:190 | ranking is a permutation, largest change first, and quotes with equal change keep their order |
| MockMarket.GainersAreGains | mock_nse_data.py:192 | gainers are rising quotes, largest first, at most `count`, drawn from the quotes |
| MockMarket.GainersAreTop | mock_nse_data.py:190-192 | no rising quote left out beats a gainer that was kept, and a rising quote is left out only when `count` gainers were kept, so the gainers are the `min(count, number of gains)` largest |
| MockMarket.LosersAreLosses | mock_nse_data.py:193-194 | as written, losers are falling quotes, largest drop first, at most `count` |
| MockMarket.LosersAreMildest | mock_nse_data.py:190-194 | as written, no falling quote left out drops less than a loser that was kept, and one is left out only when `count` losers were kept |
| MockMarket.LosersMissLargestDrop | mock_nse_data.py:184-194 | with drops of 1% and 3% and `count` 1, the as-written losers hold the 1% drop and the corrected ones hold the 3% drop |
| MockMarket.WorstLosersAreLosses | mock_nse_data.py:193-194 | corrected losers are falling quotes, largest drop first, at most `count` |
| MockMarket.WorstLosersAreWorst | mock_nse_data.py:193-194 | no falling quote left out of the corrected losers drops more than one that was kept, and one is left out only when `count` losers were kept, so they are the `min(count, number of losses)` largest drops |
| MockMarket.UnchangedInNeither | mock_nse_data.py:192-193 | a quote with zero change is neither a gainer nor a loser |
| MockMarket.MarketSummaryConsistent | mock_nse_data.py:211-229 | each index value is exactly its base (22500 or 48200) plus its change, and each figure is within half a cent of the move its draw asks for |
| MockMarket.MarketSummaryOf | mock_nse_data.py:204-232 | `get_market_summary`, with its two `gauss` draws as deviates: both readings carry the clock reading, and the record the source and note; MarketSummaryConsistent ties each value to its base and draw |
| YahooFinance.YahooSymbol | nse_data_fetcher.py:52-53 | `.NS` is appended exactly when absent, and the result always ends in `.NS` |
| YahooFinance.YahooSymbolIdempotent | nse_data_fetcher.py:52-53 | normalising twice equals normalising once |
| YahooFinance.FirstResult | nse_data_fetcher.py:65-66 | a result is picked exactly when `chart.result` is present and non-empty, and it is the first one; a null chart raises |
| YahooFinance.PercentChange | nse_data_fetcher.py:74-75 | with a truthy previous close, the change percent times the previous close is 100 times the change; otherwise it is 0 |
| YahooFinance.QuoteFromMeta | nse_data_fetcher.py:67-81 | a meta object gives a quote or a failure, under the requested symbol |
| YahooFinance.QuoteChangeArithmetic | nse_data_fetcher.py:71-75 | change is price less previous close, each missing one read as 0; the percent relates it to a truthy previous close and is 0 otherwise |
| YahooFinance.QuoteFromMetaFails | nse_data_fetcher.py:71-86 | a quote fails exactly when price, previous close or market time is null, with a type error, or else when the market time is outside `datetime`'s range, with a value error |
| YahooFinance.FarFutureTimeFails | nse_data_fetcher.py:79-86 | a market time of 10^12 seconds gives the error record, not a quote |
| YahooFinance.EmptyMetaDefaults | nse_data_fetcher.py:67-80 | a missing meta object gives no price, zero change, INR on NSE, stamped with the clock |
| YahooFinance.StockQuote | nse_data_fetcher.py:50-86 | every outcome names the normalised symbol; "No data available" comes back exactly when a body arrived without a first chart result |
| YahooFinance.QuoteFromBody | nse_data_fetcher.py:65-83 | "No data available" exactly when there is no first result; the outcome names the symbol |
| YahooFinance.BarsKeepColumns | nse_data_fetcher.py:236-244 | one bar per timestamp, in order; each of the open, high, low, close and volume columns read back from the bars is its array cut or padded with `None` to the number of timestamps |
| YahooFinance.FitByCell | nse_data_fetcher.py:239-243 | the fitted column holds the array's entry where there is one, and `None` past its end |
| YahooFinance.HistoryRows | nse_data_fetcher.py:231-244 | a successful read has exactly one row per timestamp |
| YahooFinance.RowsFrom | nse_data_fetcher.py:231-244 | a successful read has exactly one row per timestamp, with none for missing timestamps, and every date in range; a first date out of range fails with a value error before any column is read |
| YahooFinance.HistoricalData | nse_data_fetcher.py:215-257 | the chart is requested for the normalised symbol and the period; "No data available" comes back exactly when a body arrived without a first result; a history comes back exactly when the first result's rows can all be built, its data are those rows and its count their number; otherwise the failure names the symbol and the source, with the transport reason when the request failed |
| YahooFinance.HistoryFromArrays | nse_data_fetcher.py:229-250 | with timestamps and all arrays present, the history rows are the bars built from the arrays when every date is in range, and a value error otherwise; all five columns are the arrays fitted to the number of timestamps |
| YahooFinance.NoTimestampsNoRows | nse_data_fetcher.py:231-236 | with no timestamps, the series is empty and no column is touched |
| AlphaVantage.StockQuote | nse_data_fetcher.py:100-138 | the key-missing record comes back exactly when the key is absent or empty, with the original symbol; otherwise the outcome names the symbol with every `.NS` removed |
| AlphaVantage.NoKeyNoRequest | nse_data_fetcher.py:100-105 | without a key, the outcome does not depend on the network |
| AlphaVantage.KeyedRequest | nse_data_fetcher.py:107-118 | with a key, the request is for the stripped symbol on `.BSE`, a transport failure is reported under the stripped symbol, and a quote's symbol is stripped |
| AlphaVantage.FromBody | nse_data_fetcher.py:122-135 | "no data" comes back exactly when `Global Quote` is missing, null or empty, and it carries the whole body, the service's `Note` included |
| AlphaVantage.FromGlobalQuote | nse_data_fetcher.py:123-133 | the quote fails exactly when a field it reads does not convert; a type error means a `null` number, an attribute error a `null` change percent, and otherwise the error is a value error |
| AlphaVantage.PercentText | nse_data_fetcher.py:129 | the change percent text has no `%` left |
| AlphaVantage.PercentField | nse_data_fetcher.py:129 | the change percent fails, with an attribute error, exactly when its entry is `null`, and otherwise has no `%` |
| AlphaVantage.MissingFieldsDefault | nse_data_fetcher.py:126-131 | for every quote built: a missing number reads as 0, a missing change percent as "0", a missing trading day as `None`, and a present entry as its conversion |
| AlphaVantage.NullPriceFirst | nse_data_fetcher.py:126 | a `null` price fails with a type error whatever the other fields hold |
| AlphaVantage.NullPercentBeforeVolume | nse_data_fetcher.py:126-130 | with the three prices converting, a `null` change percent fails with an attribute error before the volume is read |
| LiveMarket.Outcomes | nse_data_fetcher.py:184-185 | one outcome per queried symbol, naming its Yahoo symbol |
| LiveMarket.Movements | nse_data_fetcher.py:184-191 | the kept quotes are no more than the outcomes, and all have a non-zero change percent |
| LiveMarket.MovementsComplete | nse_data_fetcher.py:186-191 | every returned quote with a non-zero change percent is kept |
| LiveMarket.MovementsSound | nse_data_fetcher.py:186-189 | every kept quote was returned |
| LiveMarket.MoversShape | nse_data_fetcher.py:188-200 | gainers rise, largest first; losers fall, largest drop first; at most `count` of each; all drawn from the kept quotes |
| LiveMarket.MoversComplete | nse_data_fetcher.py:188-200 | when nothing is cut, every rising quote is a gainer and every falling one a loser |
| LiveMarket.LiveMoversComplete | nse_data_fetcher.py:184-200 | for a non-negative `count`, the quote of any of the first `count` sample symbols is a gainer when it rises and a loser when it falls: at most `count` quotes are kept, so the cut to `count` drops none |
| LiveMarket.LiveMoversSound | nse_data_fetcher.py:184-200 | every gainer and loser is a quote returned for one of the first `count` sample symbols |
| LiveMarket.TopGainersLosers | nse_data_fetcher.py:161-202 | the live `get_top_gainers_losers`: every gainer rises and every loser falls, gainers sorted largest change first and losers largest drop first, at most `count` of each for a non-negative `count`; which quotes appear is stated by LiveMoversComplete and LiveMoversSound |
| LiveMarket.NseIndices | nse_data_fetcher.py:147-157 | the keys are exactly NIFTY, BANKNIFTY and FINNIFTY, each mapped to the quote of `^NSE` plus its name |
| LiveMarket.IndexSymbols | nse_data_fetcher.py:152-154 | each index is quoted as `^NSE<name>.NS` |
| Sorting.SortByIsStable | mock_nse_data.py:190 | the stable sort keeps the relative order of elements with equal keys |
| Sorting.TakeIsPrefix | mock_nse_data.py:184 | the slice `s[:n]` is a prefix, of length at most `n` for `n >= 0`, counting back from the end for negative `n` |
| Sorting.FilterSorted | mock_nse_data.py:192-193 | filtering a sorted list keeps it sorted |

## Left out

- HTTP plumbing (session, headers, timeouts, `raise_for_status`, JSON decoding). It is the `fetch` parameter. A transport or decoding failure is `Failed(reason)`, and the exception text is that `reason`.
- The `time.sleep(0.5)` between live requests. It only delays.
- Python's random generator: `random.seed` (including the `if seed:` skip for seed 0), Mersenne Twister and the distribution shapes. Draws are parameters with their ranges.
- The order in which the generator consumes draws. Each quote or day gets its own record of draws.
- MockMarket.Portfolio: `draws[i]` belongs to `symbols[i]`, and the draw of an unknown symbol goes unused. The generator itself draws nothing for an unknown symbol.
- IEEE-754 floats and Python's banker's rounding in `round`. Arithmetic is on reals, and `Round2` rounds half up.
- Clock and date formatting (`datetime.now().isoformat()`, `strftime`, `fromtimestamp`). The clock reading is an opaque string parameter. Mock dates are day offsets (`-1` is yesterday). Yahoo dates are the raw timestamps, or `ClockNow` when the market time is missing. One clock reading stamps every quote of a `get_portfolio_data` or `get_top_gainers_losers` call, although `get_stock_quote` reads `datetime.now()` once per quote; no contract depends on the timestamps.
- Text.Upper: ASCII letters only. Python's full Unicode upper-casing is not modelled.
- `str(e)` messages of caught exceptions other than transport failures. They are kept as the exception kind (`TypeError`, `AttributeError`, `IndexError`, `ValueError`).
- JSON values of unexpected types (a string where a number is expected, a non-list `result`, a number inside `Global Quote`) and `null` elements inside `chart.result`. Fields are typed, and only missing, `null` and present are distinguished. Of the top level of an Alpha Vantage reply besides `Global Quote`, only the text entries (such as `Note`) are kept.
- YahooFinance.QuoteFromMetaFails: `datetime`'s range is taken in UTC. The local time zone moves each end by up to a day. For the most extreme timestamps Python raises `OverflowError` or `OSError` rather than `ValueError`; all of them are `ValueError` here. Only the message differs, and messages are not modelled.
- Python's `float`/`int` parsing of Alpha Vantage strings. It is the `Parsers` parameter.
- The `except` branch of `get_nse_indices`. `get_stock_quote_yahoo` catches every exception itself, so that branch cannot be reached.
- The timestamp of the live gainers/losers. It is a clock reading.
- Python's default arguments (`days=30`, `count=10`, `period='1mo'`). Every modelled operation takes the value explicitly from its caller.
- The order of the keys of `get_nse_indices`'s result. Python's dict keeps NIFTY, BANKNIFTY, FINNIFTY in insertion order; `LiveMarket.NseIndices` returns a `map`, which has no order. No caller depends on the order.
- `get_stock_info`, the Streamlit dashboard, Excel export, configuration loading and the demo scripts. They are I/O glue around the modelled operations.

## Findings

| source | as written | input that shows it | evidently intended | confidence | as-written member | corrected member |
|---|---|---|---|---|---|---|
| mock_nse_data.py:192-194 | the losers are the first `count` falling quotes of the list sorted by change descending, which are the mildest drops, then re-sorted ascending | `count = 1`, so RELIANCE and TCS are ranked; RELIANCE falls 1% and TCS falls 3%: losers = [RELIANCE] | the `count` largest drops, largest first: [TCS] | medium, not executed | MockMarket.Losers, MockMarket.LosersMissLargestDrop, MockMarket.LosersAreMildest | MockMarket.WorstLosers, MockMarket.WorstLosersAreWorst |

`MockMarket.TopGainersLosers` uses the corrected losers. The live version (`LiveMarket.TopGainersLosers`) sorts before cutting and does not have this problem.

=== FILE: alpha_vantage.dfy ===
/** The pure part of the Alpha Vantage connector of `NSEDataFetcher`
    (`get_stock_quote_alphavantage`). The HTTP call is the parameter
    `fetch`; Python's `float` and `int` on the quote's strings are the
    parameters `toFloat` and `toInt`, `None` standing for `ValueError`. */
module AlphaVantage {
  import opened Values
  import Text

  const Source: string := "Alpha Vantage"
  const KeyMissingError: string := "Alpha Vantage API key not provided"
  const KeyInfo: string := "Get free API key at https://www.alphavantage.co/support/#api-key"
  const NoQuoteError: string := "No data available or API limit reached"

  const PriceKey: string := "05. price"
  const VolumeKey: string := "06. volume"
  const TradingDayKey: string := "07. latest trading day"
  const PreviousCloseKey: string := "08. previous close"
  const ChangeKey: string := "09. change"
  const ChangePercentKey: string := "10. change percent"

  /** A `GLOBAL_QUOTE` request: the exchange-qualified symbol and the key. */
  datatype Request = GlobalQuoteRequest(symbol: string, apiKey: string)

  /** The decoded body: the `Global Quote` object, whose entries are text
      or `null`, and the other top-level text entries, such as the `Note`
      the service sends in place of a quote when the call limit is hit. */
  datatype Body = Body(globalQuote: Field<map<string, Option<string>>>, others: map<string, string>)

  datatype Response = Failed(reason: string) | Received(body: Body)

  /** Python's number conversions, `None` meaning `ValueError`. */
  datatype Parsers = Parsers(toFloat: string -> Option<real>, toInt: string -> Option<int>)

  datatype AvQuote = AvQuote(
    symbol: string,
    price: real,
    previousClose: real,
    change: real,
    changePercent: string,
    volume: int,
    latestTradingDay: Option<string>,
    source: string)

  datatype Outcome =
    | AvQuoted(quote: AvQuote)
    | KeyMissing(error: string, info: string, symbol: string)
    | AvNoData(error: string, symbol: string, data: Body)
    | AvFailure(fault: Fault, symbol: string, source: string)
  {
    function Symbol(): string {
      match this
      case AvQuoted(q) => q.symbol
      case KeyMissing(_, _, s) => s
      case AvNoData(_, s, _) => s
      case AvFailure(_, s, _) => s
    }
  }

  /** `not self.alpha_vantage_key`: no key, or the empty key. */
  predicate KeyFalsy(key: Option<string>) {
    key.None? || key.value == ""
  }

  /** `symbol.replace('.NS', '')`. */
  function StripSuffix(symbol: string): string {
    Text.RemoveAll(symbol, ".NS")
  }

  /** `float(quote.get(key, 0))`: zero when the key is missing, `TypeError`
      on `null`, `ValueError` on text that is not a number. */
  function FloatField(q: map<string, Option<string>>, key: string, p: Parsers): Result<real> {
    if key !in q then Ok(0.0)
    else
      match q[key]
      case None => Err(TypeError)
      case Some(text) =>
        match p.toFloat(text)
        case Some(x) => Ok(x)
        case None => Err(ValueError)
  }

  /** `int(quote.get(key, 0))`. */
  function IntField(q: map<string, Option<string>>, key: string, p: Parsers): Result<int> {
    if key !in q then Ok(0)
    else
      match q[key]
      case None => Err(TypeError)
      case Some(text) =>
        match p.toInt(text)
        case Some(n) => Ok(n)
        case None => Err(ValueError)
  }

  /** `text.replace('%', '')`. */
  function PercentText(text: string): (r: string)
    ensures '%' !in r
  {
    Text.RemoveAllChar(text, '%');
    Text.RemoveAll(text, "%")
  }

  /** `quote.get('10. change percent', '0%').replace('%', '')`: `null` has
      no `replace`, so it raises `AttributeError`. */
  function PercentField(q: map<string, Option<string>>): (r: Result<string>)
    ensures r.Err? <==> NullAt(q, ChangePercentKey)
    ensures r.Err? ==> r.fault == AttributeError
    ensures r.Ok? ==> '%' !in r.value
  {
    if ChangePercentKey !in q then Ok(PercentText("0%"))
    else
      match q[ChangePercentKey]
      case None => Err(AttributeError)
      case Some(text) => Ok(PercentText(text))
  }

  /** `quote.get('07. latest trading day')`: `None` when missing or `null`. */
  function TradingDay(q: map<string, Option<string>>): Option<string> {
    if TradingDayKey in q then q[TradingDayKey] else None
  }

  /** The entry under `key` is JSON `null`. */
  predicate NullAt(q: map<string, Option<string>>, key: string) {
    key in q && q[key].None?
  }

  /** The quote built from a non-empty `Global Quote`, or the exception of
      the first field, in the order price, previous close, change, change
      percent, volume, that does not convert. */
  function FromGlobalQuote(symbol: string, q: map<string, Option<string>>, p: Parsers): (r: Outcome)
    ensures r.AvQuoted? || r.AvFailure?
    ensures r.Symbol() == symbol
    ensures r.AvFailure? <==> !FieldsConvert(q, p)
    ensures r.AvFailure? ==> r.fault == TypeError || r.fault == ValueError || r.fault == AttributeError
    ensures r.AvFailure? && r.fault == TypeError ==>
              NullAt(q, PriceKey) || NullAt(q, PreviousCloseKey) || NullAt(q, ChangeKey) || NullAt(q, VolumeKey)
    ensures r.AvFailure? && r.fault == AttributeError ==> NullAt(q, ChangePercentKey)
  {
    match FloatField(q, PriceKey, p)
    case Err(f) => AvFailure(f, symbol, Source)
    case Ok(price) =>
      match FloatField(q, PreviousCloseKey, p)
      case Err(f) => AvFailure(f, symbol, Source)
      case Ok(prev) =>
        match FloatField(q, ChangeKey, p)
        case Err(f) => AvFailure(f, symbol, Source)
        case Ok(change) =>
          match PercentField(q)
          case Err(f) => AvFailure(f, symbol, Source)
          case Ok(percent) =>
            match IntField(q, VolumeKey, p)
            case Err(f) => AvFailure(f, symbol, Source)
            case Ok(volume) => AvQuoted(AvQuote(symbol, price, prev, change, percent, volume, TradingDay(q), Source))
  }

  /** Every field the quote reads converts. */
  predicate FieldsConvert(q: map<string, Option<string>>, p: Parsers) {
    && FloatField(q, PriceKey, p).Ok?
    && FloatField(q, PreviousCloseKey, p).Ok?
    && FloatField(q, ChangeKey, p).Ok?
    && PercentField(q).Ok?
    && IntField(q, VolumeKey, p).Ok?
  }

  /** `get_stock_quote_alphavantage(symbol)` with the configured key. */
  function StockQuote(symbol: string, key: Option<string>, fetch: Request -> Response, p: Parsers): (r: Outcome)
    ensures r.KeyMissing? <==> KeyFalsy(key)
    ensures r.KeyMissing? ==> r == KeyMissing(KeyMissingError, KeyInfo, symbol)
    ensures !KeyFalsy(key) ==> r.Symbol() == StripSuffix(symbol)
  {
    if KeyFalsy(key) then KeyMissing(KeyMissingError, KeyInfo, symbol)
    else
      match fetch(GlobalQuoteRequest(StripSuffix(symbol) + ".BSE", key.value))
      case Failed(reason) => AvFailure(Transport(reason), StripSuffix(symbol), Source)
      case Received(body) => FromBody(StripSuffix(symbol), body, p)
  }

  /** `if 'Global Quote' in data and data['Global Quote']`: a missing, null
      or empty object means no quote, and the record passes the whole body
      on, the service's `Note` included. */
  function FromBody(symbol: string, body: Body, p: Parsers): (r: Outcome)
    ensures r.AvNoData? <==> !(body.globalQuote.Present? && |body.globalQuote.value| > 0)
    ensures r.AvNoData? ==> r == AvNoData(NoQuoteError, symbol, body)
    ensures r.Symbol() == symbol
  {
    if body.globalQuote.Present? && |body.globalQuote.value| > 0 then FromGlobalQuote(symbol, body.globalQuote.value, p)
    else AvNoData(NoQuoteError, symbol, body)
  }

  /** Without a key nothing is requested: the outcome is the same whatever
      the network would have answered. */
  lemma NoKeyNoRequest(symbol: string, key: Option<string>, f1: Request -> Response, f2: Request -> Response, p: Parsers)
    requires KeyFalsy(key)
    ensures StockQuote(symbol, key, f1, p) == StockQuote(symbol, key, f2, p)
  {
  }

  /** With a key, the request names the symbol with every `.NS` removed,
      qualified for the Bombay exchange, and a quote has every `.NS`
      removed from its symbol and no `%` in its change percent. */
  lemma KeyedRequest(symbol: string, key: string, fetch: Request -> Response, p: Parsers)
    requires key != ""
    ensures var r := StockQuote(symbol, Some(key), fetch, p);
      && (fetch(GlobalQuoteRequest(StripSuffix(symbol) + ".BSE", key)).Failed? ==>
            r == AvFailure(Transport(fetch(GlobalQuoteRequest(StripSuffix(symbol) + ".BSE", key)).reason), StripSuffix(symbol), Source))
      && (r.AvQuoted? ==> r.quote.symbol == StripSuffix(symbol) && '%' !in r.quote.changePercent)
  {
  }

  /** Every field of a quote is read from its key: a missing number reads
      as zero, a missing change percent as "0", a missing trading day as
      `None`, and a present entry as its conversion. */
  lemma MissingFieldsDefault(symbol: string, q: map<string, Option<string>>, p: Parsers)
    requires FromGlobalQuote(symbol, q, p).AvQuoted?
    ensures var a := FromGlobalQuote(symbol, q, p).quote;
      && (PriceKey !in q ==> a.price == 0.0)
      && (PreviousCloseKey !in q ==> a.previousClose == 0.0)
      && (ChangeKey !in q ==> a.change == 0.0)
      && (VolumeKey !in q ==> a.volume == 0)
      && (ChangePercentKey !in q ==> a.changePercent == "0")
      && (TradingDayKey !in q ==> a.latestTradingDay == None)
    ensures var a := FromGlobalQuote(symbol, q, p).quote;
      && (PriceKey in q ==> q[PriceKey].Some? && p.toFloat(q[PriceKey].value) == Some(a.price))
      && (PreviousCloseKey in q ==> q[PreviousCloseKey].Some? && p.toFloat(q[PreviousCloseKey].value) == Some(a.previousClose))
      && (ChangeKey in q ==> q[ChangeKey].Some? && p.toFloat(q[ChangeKey].value) == Some(a.change))
      && (VolumeKey in q ==> q[VolumeKey].Some? && p.toInt(q[VolumeKey].value) == Some(a.volume))
      && (ChangePercentKey in q ==> q[ChangePercentKey].Some? && a.changePercent == PercentText(q[ChangePercentKey].value))
      && (TradingDayKey in q ==> a.latestTradingDay == q[TradingDayKey])
  {
    if ChangePercentKey !in q {
      assert Text.RemoveAll("0%", "%") == "0" by {
        assert "0%"[..1][0] == '0';
        assert "0%"[1..] == "%";
        assert Text.RemoveAll("%", "%") == "";
      }
    }
  }

  /** The price is converted first: a `null` price fails with `TypeError`
      whatever the other fields hold. */
  lemma NullPriceFirst(symbol: string, q: map<string, Option<string>>, p: Parsers)
    requires NullAt(q, PriceKey)
    ensures FromGlobalQuote(symbol, q, p) == AvFailure(TypeError, symbol, Source)
  {
  }

  /** The change percent is read before the volume: with the three prices
      converting, a `null` change percent fails with `AttributeError` even
      when the volume is not a number either. */
  lemma NullPercentBeforeVolume(symbol: string, q: map<string, Option<string>>, p: Parsers)
    requires FloatField(q, PriceKey, p).Ok? && FloatField(q, PreviousCloseKey, p).Ok? && FloatField(q, ChangeKey, p).Ok?
    requires NullAt(q, ChangePercentKey)
    ensures FromGlobalQuote(symbol, q, p) == AvFailure(AttributeError, symbol, Source)
  {
  }
}

=== FILE: live_market.dfy ===
/** The market views `NSEDataFetcher` assembles from Yahoo quotes:
    `get_top_gainers_losers` over a fixed sample of symbols and
    `get_nse_indices`. */
module LiveMarket {
  import Sorting
  import opened YahooFinance
  import Text

  /** The sample the live gainers and losers are drawn from, in order. */
  const SampleStocks: seq<string> := [
    "RELIANCE", "TCS", "INFY", "HDFCBANK", "ICICIBANK",
    "HINDUNILVR", "ITC", "SBIN", "BAJFINANCE", "BHARTIARTL",
    "KOTAKBANK", "LT", "AXISBANK", "ASIANPAINT", "MARUTI"]

  /** The outcome of querying each symbol, in order. */
  function Outcomes(symbols: seq<string>, fetch: Request -> Response): (r: seq<QuoteOutcome>)
    ensures |r| == |symbols|
    ensures forall i :: 0 <= i < |r| ==> r[i].Symbol() == YahooSymbol(symbols[i])
  {
    seq(|symbols|, i requires 0 <= i < |symbols| => StockQuote(symbols[i], fetch))
  }

  /** The quotes that came back without an error and with a truthy
      (non-zero) change percent, in order. */
  function Movements(outcomes: seq<QuoteOutcome>): (r: seq<LiveQuote>)
    ensures |r| <= |outcomes|
    ensures forall i :: 0 <= i < |r| ==> r[i].changePercent != 0.0
    decreases |outcomes|
  {
    if |outcomes| == 0 then []
    else
      match outcomes[0]
      case Quoted(q) =>
        if q.changePercent != 0.0 then [q] + Movements(outcomes[1..])
        else Movements(outcomes[1..])
      case _ => Movements(outcomes[1..])
  }

  /** A returned quote makes it into the movements when its change percent
      is non-zero. */
  lemma {:induction false} MovementsComplete(outcomes: seq<QuoteOutcome>, j: int)
    requires 0 <= j < |outcomes|
    requires outcomes[j].Quoted? && outcomes[j].quote.changePercent != 0.0
    ensures outcomes[j].quote in Movements(outcomes)
    decreases |outcomes|
  {
    if j > 0 {
      MovementsComplete(outcomes[1..], j - 1);
      assert outcomes[1..][j - 1] == outcomes[j];
    }
  }

  /** Every movement is a quote that was returned. */
  lemma {:induction false} MovementsSound(outcomes: seq<QuoteOutcome>)
    ensures forall q :: q in Movements(outcomes) ==> Quoted(q) in outcomes
    decreases |outcomes|
  {
    if |outcomes| > 0 {
      MovementsSound(outcomes[1..]);
      forall q | q in Movements(outcomes)
        ensures Quoted(q) in outcomes
      {
        if outcomes[0] != Quoted(q) {
          assert q in Movements(outcomes[1..]);
          assert Quoted(q) in outcomes[1..];
        }
      }
    }
  }

  function ChangeOf(q: LiveQuote): real {
    q.changePercent
  }

  predicate Rising(q: LiveQuote) {
    q.changePercent > 0.0
  }

  predicate Falling(q: LiveQuote) {
    q.changePercent < 0.0
  }

  datatype LiveMovers = LiveMovers(gainers: seq<LiveQuote>, losers: seq<LiveQuote>)

  /** `get_top_gainers_losers(count)`: the first `count` sample symbols are
      queried; the rising quotes, largest first, and the falling quotes,
      largest drop first, each cut to `count`. The timestamp is left out. */
  function TopGainersLosers(count: int, fetch: Request -> Response): (r: LiveMovers)
    ensures forall i :: 0 <= i < |r.gainers| ==> Rising(r.gainers[i])
    ensures forall i :: 0 <= i < |r.losers| ==> Falling(r.losers[i])
    ensures Sorting.SortedBy(r.gainers, ChangeOf, true)
    ensures Sorting.SortedBy(r.losers, ChangeOf, false)
    ensures count >= 0 ==> |r.gainers| <= count && |r.losers| <= count
  {
    var moves := Movements(Outcomes(Sorting.Take(SampleStocks, count), fetch));
    MoversShape(moves, count);
    MoversOf(moves, count)
  }

  function MoversOf(moves: seq<LiveQuote>, count: int): LiveMovers {
    LiveMovers(
      Sorting.Take(Sorting.SortBy(Sorting.Filter(moves, Rising), ChangeOf, true), count),
      Sorting.Take(Sorting.SortBy(Sorting.Filter(moves, Falling), ChangeOf, false), count))
  }

  /** Gainers rise, largest first, at most `count`; losers fall, largest
      drop first, at most `count`; both are drawn from the movements. */
  lemma MoversShape(moves: seq<LiveQuote>, count: int)
    ensures var m := MoversOf(moves, count);
      && (forall i :: 0 <= i < |m.gainers| ==> Rising(m.gainers[i]) && m.gainers[i] in moves)
      && (forall i :: 0 <= i < |m.losers| ==> Falling(m.losers[i]) && m.losers[i] in moves)
      && Sorting.SortedBy(m.gainers, ChangeOf, true)
      && Sorting.SortedBy(m.losers, ChangeOf, false)
      && (count >= 0 ==> |m.gainers| <= count && |m.losers| <= count)
      && (forall q :: q in m.gainers || q in m.losers ==> q in moves)
  {
    SideShape(moves, Rising, true, count);
    SideShape(moves, Falling, false, count);
  }

  /** One side of the movers: the kept movements in key order, cut to
      `count`. */
  lemma SideShape(moves: seq<LiveQuote>, keep: LiveQuote -> bool, descending: bool, count: int)
    ensures var t := Sorting.Take(Sorting.SortBy(Sorting.Filter(moves, keep), ChangeOf, descending), count);
      && (forall i :: 0 <= i < |t| ==> keep(t[i]) && t[i] in moves)
      && Sorting.SortedBy(t, ChangeOf, descending)
      && (count >= 0 ==> |t| <= count)
      && (forall q :: q in t ==> q in moves)
  {
    var kept := Sorting.Filter(moves, keep);
    var sorted := Sorting.SortBy(kept, ChangeOf, descending);
    var t := Sorting.Take(sorted, count);
    Sorting.TakeIsPrefix(sorted, count);
    Sorting.TakeOfSorted(sorted, count, ChangeOf, descending);
    forall i | 0 <= i < |t|
      ensures keep(t[i]) && t[i] in moves
    {
      assert t[i] == sorted[i];
      assert sorted[i] in multiset(kept);
    }
  }

  /** With `count` at least the number of movements, nothing is cut: every
      rising movement is a gainer and every falling one a loser. */
  lemma MoversComplete(moves: seq<LiveQuote>, count: int)
    requires count >= |moves|
    ensures forall q :: q in moves && Rising(q) ==> q in MoversOf(moves, count).gainers
    ensures forall q :: q in moves && Falling(q) ==> q in MoversOf(moves, count).losers
  {
    var ups := Sorting.Filter(moves, Rising);
    var downs := Sorting.Filter(moves, Falling);
    var up := Sorting.SortBy(ups, ChangeOf, true);
    var down := Sorting.SortBy(downs, ChangeOf, false);
    Sorting.TakeIsPrefix(up, count);
    Sorting.TakeIsPrefix(down, count);
    forall q | q in moves && Rising(q)
      ensures q in MoversOf(moves, count).gainers
    {
      assert q in ups;
      assert q in multiset(up);
    }
    forall q | q in moves && Falling(q)
      ensures q in MoversOf(moves, count).losers
    {
      assert q in downs;
      assert q in multiset(down);
    }
  }

  /** Only the first `count` sample symbols are queried, and with a
      non-negative `count` every rising quote among them is a gainer and
      every falling one a loser. */
  lemma LiveMoversComplete(count: int, fetch: Request -> Response, j: int)
    requires 0 <= j < |Sorting.Take(SampleStocks, count)|
    requires StockQuote(SampleStocks[j], fetch).Quoted?
    ensures count >= 0 && Rising(StockQuote(SampleStocks[j], fetch).quote) ==>
              StockQuote(SampleStocks[j], fetch).quote in TopGainersLosers(count, fetch).gainers
    ensures count >= 0 && Falling(StockQuote(SampleStocks[j], fetch).quote) ==>
              StockQuote(SampleStocks[j], fetch).quote in TopGainersLosers(count, fetch).losers
  {
    var queried := Sorting.Take(SampleStocks, count);
    Sorting.TakeIsPrefix(SampleStocks, count);
    var outs := Outcomes(queried, fetch);
    var q := StockQuote(SampleStocks[j], fetch).quote;
    if count >= 0 && q.changePercent != 0.0 {
      assert queried[j] == SampleStocks[j];
      assert outs[j] == StockQuote(SampleStocks[j], fetch);
      MovementsComplete(outs, j);
      MoversComplete(Movements(outs), count);
    }
  }

  /** Every gainer and loser is the quote returned for one of the first
      `count` sample symbols. */
  lemma LiveMoversSound(count: int, fetch: Request -> Response)
    ensures var m := TopGainersLosers(count, fetch);
      forall q :: q in m.gainers || q in m.losers ==>
        Quoted(q) in Outcomes(Sorting.Take(SampleStocks, count), fetch)
  {
    var outs := Outcomes(Sorting.Take(SampleStocks, count), fetch);
    var moves := Movements(outs);
    MovementsSound(outs);
    MoversShape(moves, count);
  }

  /** `get_nse_indices()`: the Yahoo quote of `^NSE` followed by each index
      name (the conditional on the name picks the same symbol either way). */
  function NseIndices(fetch: Request -> Response): (r: map<string, QuoteOutcome>)
    ensures r.Keys == IndexNames
    ensures forall k :: k in r ==> r[k] == IndexQuote(k, fetch)
  {
    map k | k in IndexNames :: IndexQuote(k, fetch)
  }

  /** The indices asked for. */
  const IndexNames: set<string> := {"NIFTY", "BANKNIFTY", "FINNIFTY"}

  /** The quote of one index, under the symbol `^NSE<name>`. */
  function IndexQuote(name: string, fetch: Request -> Response): QuoteOutcome {
    StockQuote("^NSE" + name, fetch)
  }

  /** Each index is requested as `^NSE<name>.NS`, and its outcome names that
      symbol. */
  lemma IndexSymbols(fetch: Request -> Response)
    ensures forall k :: k in NseIndices(fetch) ==> NseIndices(fetch)[k].Symbol() == "^NSE" + k + ".NS"
  {
    forall k | k in NseIndices(fetch)
      ensures NseIndices(fetch)[k].Symbol() == "^NSE" + k + ".NS"
    {
      IndexNameEnd(k);
      IndexSymbol(k, fetch);
    }
  }

  /** Every index name ends in `Y`. */
  lemma IndexNameEnd(k: string)
    requires k in IndexNames
    ensures |k| > 0 && k[|k| - 1] == 'Y'
  {
    if k == "NIFTY" {
    } else if k == "BANKNIFTY" {
    } else {
      assert k == "FINNIFTY";
    }
  }

  /** An index name that does not end in `S` gets the `.NS` suffix. */
  lemma IndexSymbol(name: string, fetch: Request -> Response)
    requires |name| > 0 && name[|name| - 1] != 'S'
    ensures IndexQuote(name, fetch).Symbol() == "^NSE" + name + ".NS"
  {
    var s := "^NSE" + name;
    assert s[|s| - 1] == name[|name| - 1];
    Text.LastCharNotSuffix(s, ".NS");
  }
}

=== FILE: mock_history.dfy ===
/** The simulated price history of the mock generator
    (`MockNSEData.get_historical_data`): a day-by-day walk that opens each
    day at the previous day's close. */
module MockHistory {
  import opened Rounding
  import Text
  import Registry
  import MockQuote

  /** The draws one day consumes: the `gauss(0, volatility)` deviate `z`,
      the two `uniform(0, 0.015)` jitters of high and low, and the volume. */
  datatype DayDraw = DayDraw(z: real, highJitter: real, lowJitter: real, volume: int) {
    predicate Valid() {
      && 0.0 <= highJitter <= 0.015
      && 0.0 <= lowJitter <= 0.015
      && MockQuote.MinVolume <= volume <= MockQuote.MaxVolume
    }
  }

  /** One daily bar. `dayOffset` is the date as a count of days from today:
      `-1` is yesterday. */
  datatype Bar = Bar(dayOffset: int, open: real, high: real, low: real, close: real, volume: int)

  /** The outcome of `get_historical_data`. */
  datatype HistoryResult =
    | History(symbol: string, period: string, data: seq<Bar>, count: int, source: string, note: string)
    | HistoryNotFound(error: string, symbol: string)

  function Max(a: real, b: real): real { if a >= b then a else b }
  function Min(a: real, b: real): real { if a <= b then a else b }

  /** The bar of a day that opens at `open` and closes at `close`: the high
      stretches the larger of the two up, the low stretches the smaller down. */
  function BarOf(day: int, open: real, close: real, d: DayDraw): Bar {
    Bar(day, open, Raise(Max(open, close), d.highJitter), Lower(Min(open, close), d.lowJitter), close, d.volume)
  }

  /** The bar of a day that opens at `open`: the close moves the open by the
      fraction `gauss(0, volatility)`. */
  function DayBar(day: int, open: real, volatility: real, d: DayDraw): Bar {
    BarOf(day, open, Raise(open, MockQuote.Deviate(volatility, d.z)), d)
  }

  /** What the bar bounds promise: every price is on the cent grid, the
      volume is in range, and, while open and close are not negative, the
      low and high bracket both. */
  predicate BarValid(b: Bar) {
    && OnCents(b.open) && OnCents(b.high) && OnCents(b.low) && OnCents(b.close)
    && MockQuote.MinVolume <= b.volume <= MockQuote.MaxVolume
    && (b.open >= 0.0 && b.close >= 0.0 ==> b.low <= Min(b.open, b.close) && Max(b.open, b.close) <= b.high)
  }

  /** The walk: one bar per draw, dated from `firstDay` on, each opening at
      the previous close. */
  function Walk(open: real, volatility: real, draws: seq<DayDraw>, firstDay: int): (r: seq<Bar>)
    ensures |r| == |draws|
    ensures forall i :: 0 <= i < |r| ==> r[i].dayOffset == firstDay + i && r[i].volume == draws[i].volume
    ensures |r| > 0 ==> r[0].open == open
    ensures forall i :: 0 < i < |r| ==> r[i].open == r[i - 1].close
    decreases |draws|
  {
    if |draws| == 0 then []
    else
      var first := DayBar(firstDay, open, volatility, draws[0]);
      [first] + Walk(first.close, volatility, draws[1..], firstDay + 1)
  }

  /** A day's bar keeps the bounds when it opens on the cent grid. */
  lemma DayBarValid(day: int, open: real, volatility: real, d: DayDraw)
    requires OnCents(open)
    requires d.Valid()
    ensures BarValid(DayBar(day, open, volatility, d))
  {
    var close := Raise(open, MockQuote.Deviate(volatility, d.z));
    Round2OnCents(open * (1.0 + MockQuote.Deviate(volatility, d.z)));
    BarOfValid(day, open, close, d);
  }

  lemma BarOfValid(day: int, open: real, close: real, d: DayDraw)
    requires OnCents(open) && OnCents(close)
    requires d.Valid()
    ensures BarValid(BarOf(day, open, close, d))
  {
    var hi := Max(open, close);
    var lo := Min(open, close);
    StretchUp(hi, d.highJitter);
    StretchDown(lo, d.lowJitter);
  }

  /** Raising a non-negative grid price never lowers it. */
  lemma StretchUp(p: real, h: real)
    requires OnCents(p) && 0.0 <= h
    ensures p >= 0.0 ==> p <= Raise(p, h)
    ensures OnCents(Raise(p, h))
  {
    if p >= 0.0 {
      MockQuote.MulBounds(p, h, 0.0, h);
      assert p <= p * (1.0 + h);
      Round2Fixes(p);
      Round2Monotone(p, p * (1.0 + h));
    }
    Round2OnCents(p * (1.0 + h));
  }

  /** Lowering a non-negative grid price never raises it. */
  lemma StretchDown(p: real, l: real)
    requires OnCents(p) && 0.0 <= l
    ensures p >= 0.0 ==> Lower(p, l) <= p
    ensures OnCents(Lower(p, l))
  {
    if p >= 0.0 {
      MockQuote.MulBounds(p, l, 0.0, l);
      assert p * (1.0 - l) <= p;
      Round2Fixes(p);
      Round2Monotone(p * (1.0 - l), p);
    }
    Round2OnCents(p * (1.0 - l));
  }

  /** Every bar of a walk that starts on the cent grid with valid draws
      keeps the bounds. */
  lemma {:induction false} WalkValid(open: real, volatility: real, draws: seq<DayDraw>, firstDay: int)
    requires OnCents(open)
    requires forall i :: 0 <= i < |draws| ==> draws[i].Valid()
    ensures forall i :: 0 <= i < |draws| ==> BarValid(Walk(open, volatility, draws, firstDay)[i])
    decreases |draws|
  {
    if |draws| > 0 {
      var first := DayBar(firstDay, open, volatility, draws[0]);
      DayBarValid(firstDay, open, volatility, draws[0]);
      WalkValid(first.close, volatility, draws[1..], firstDay + 1);
      var r := Walk(open, volatility, draws, firstDay);
      var rest := Walk(first.close, volatility, draws[1..], firstDay + 1);
      assert r == [first] + rest;
      forall i | 0 <= i < |draws|
        ensures BarValid(r[i])
      {
        if i > 0 {
          assert r[i] == rest[i - 1];
        }
      }
    }
  }

  /** The close of a day that opens non-negative stays non-negative unless
      the draw moves it down by more than the whole price. */
  lemma CloseNonNegative(open: real, volatility: real, z: real)
    requires open >= 0.0
    requires MockQuote.Deviate(volatility, z) >= -1.0
    ensures Raise(open, MockQuote.Deviate(volatility, z)) >= 0.0
  {
    var f := 1.0 + MockQuote.Deviate(volatility, z);
    MockQuote.MulBounds(open, f, 0.0, f);
    Round2KeepsSign(open * f);
  }

  /** `get_historical_data(symbol, days)`. `range(days, 0, -1)` gives
      `max(days, 0)` days, dated `days` days ago up to yesterday. */
  function HistoricalData(symbol: string, days: int, draws: seq<DayDraw>): (r: HistoryResult)
    requires |draws| >= days
    ensures r.HistoryNotFound? <==> !Registry.IsKnown(symbol)
    ensures r.HistoryNotFound? ==> r == HistoryNotFound("Stock symbol " + symbol + " not found", symbol)
    ensures r.History? ==>
              && r.symbol == Registry.CleanSymbol(symbol) + ".NS"
              && r.period == Text.IntToString(days) + " days"
              && |r.data| == (if days > 0 then days else 0)
              && r.count == |r.data|
              && r.source == MockQuote.Source && r.note == MockQuote.Note
  {
    match Registry.Lookup(symbol)
    case None => HistoryNotFound("Stock symbol " + symbol + " not found", symbol)
    case Some(stock) => HistoryOf(stock, days, Series(stock, draws[..DayCount(days)]))
  }

  /** The number of days `range(days, 0, -1)` visits. */
  function DayCount(days: int): nat {
    if days > 0 then days else 0
  }

  /** The walk of a row over the given draws, ending yesterday. */
  function Series(stock: Registry.Stock, draws: seq<DayDraw>): seq<Bar> {
    Walk(stock.basePrice, stock.volatility, draws, -|draws|)
  }

  function HistoryOf(stock: Registry.Stock, days: int, data: seq<Bar>): HistoryResult {
    History(stock.name + ".NS", Text.IntToString(days) + " days", data, |data|, MockQuote.Source, MockQuote.Note)
  }

  /** The series of a known symbol: dated consecutively up to yesterday,
      opening at the base price and chaining each open to the previous
      close, with every bar within the bounds when the draws are valid. */
  lemma HistorySeries(symbol: string, days: int, draws: seq<DayDraw>)
    requires |draws| >= days
    requires Registry.IsKnown(symbol)
    requires forall i :: 0 <= i < |draws| ==> draws[i].Valid()
    ensures var h := HistoricalData(symbol, days, draws);
      && h.History?
      && (forall i :: 0 <= i < |h.data| ==> h.data[i].dayOffset == i - |h.data|)
      && (|h.data| > 0 ==> h.data[|h.data| - 1].dayOffset == -1)
      && (|h.data| > 0 ==> h.data[0].open == Registry.Lookup(symbol).value.basePrice)
      && (forall i :: 0 < i < |h.data| ==> h.data[i].open == h.data[i - 1].close)
      && (forall i :: 0 <= i < |h.data| ==> BarValid(h.data[i]))
  {
    var stock := Registry.Lookup(symbol).value;
    var ds := draws[..DayCount(days)];
    assert HistoricalData(symbol, days, draws).data == Series(stock, ds);
    Registry.RowWellFormed(stock);
    WalkValid(stock.basePrice, stock.volatility, ds, -|ds|);
  }
}

=== FILE: mock_market.dfy ===
/** The views the mock generator builds from many quotes: a portfolio
    (`get_portfolio_data`), the gainers and losers of the table
    (`get_top_gainers_losers`) and the two index readings
    (`get_market_summary`). */
module MockMarket {
  import opened Rounding
  import Sorting
  import Registry
  import opened MockQuote

  /** The name of every quote, in order. */
  function QuoteNames(qs: seq<Quote>): (r: seq<string>)
    ensures |r| == |qs| && forall i :: 0 <= i < |qs| ==> r[i] == qs[i].name
  {
    seq(|qs|, i requires 0 <= i < |qs| => qs[i].name)
  }

  /** The table name each symbol resolves to, in order. */
  function CleanAll(symbols: seq<string>): (r: seq<string>)
    ensures |r| == |symbols| && forall i :: 0 <= i < |symbols| ==> r[i] == Registry.CleanSymbol(symbols[i])
  {
    seq(|symbols|, i requires 0 <= i < |symbols| => Registry.CleanSymbol(symbols[i]))
  }

  /** `get_portfolio_data(symbols)`: the quote of every known symbol, in
      input order; unknown symbols are skipped. `draws[i]` is what the quote
      of `symbols[i]` draws; the draw of an unknown symbol goes unused. */
  function Portfolio(symbols: seq<string>, draws: seq<QuoteDraws>, now: string): (r: seq<Quote>)
    requires |draws| >= |symbols|
    ensures |r| <= |symbols|
    decreases |symbols|
  {
    if |symbols| == 0 then []
    else
      match StockQuote(symbols[0], draws[0], now)
      case Found(q) => [q] + Portfolio(symbols[1..], draws[1..], now)
      case NotFound(_, _, _) => Portfolio(symbols[1..], draws[1..], now)
  }

  /** The portfolio holds exactly the known symbols, in input order. */
  lemma {:induction false} PortfolioNames(symbols: seq<string>, draws: seq<QuoteDraws>, now: string)
    requires |draws| >= |symbols|
    ensures QuoteNames(Portfolio(symbols, draws, now)) == CleanAll(Sorting.Filter(symbols, Registry.IsKnown))
    decreases |symbols|
  {
    if |symbols| > 0 {
      PortfolioNames(symbols[1..], draws[1..], now);
      var rest := Portfolio(symbols[1..], draws[1..], now);
      var kept := Sorting.Filter(symbols[1..], Registry.IsKnown);
      if Registry.IsKnown(symbols[0]) {
        var q := StockQuote(symbols[0], draws[0], now).quote;
        assert Portfolio(symbols, draws, now) == [q] + rest;
        assert Sorting.Filter(symbols, Registry.IsKnown) == [symbols[0]] + kept;
        QuoteNamesCons(q, rest);
        CleanAllCons(symbols[0], kept);
      } else {
        assert Sorting.Filter(symbols, Registry.IsKnown) == kept;
      }
    }
  }

  lemma QuoteNamesCons(q: Quote, rest: seq<Quote>)
    ensures QuoteNames([q] + rest) == [q.name] + QuoteNames(rest)
  {
  }

  lemma CleanAllCons(symbol: string, rest: seq<string>)
    ensures CleanAll([symbol] + rest) == [Registry.CleanSymbol(symbol)] + CleanAll(rest)
  {
  }

  /** With every symbol known, nothing is dropped. */
  lemma {:induction false} PortfolioComplete(symbols: seq<string>, draws: seq<QuoteDraws>, now: string)
    requires |draws| >= |symbols|
    requires forall i :: 0 <= i < |symbols| ==> Registry.IsKnown(symbols[i])
    ensures |Portfolio(symbols, draws, now)| == |symbols|
    decreases |symbols|
  {
    if |symbols| > 0 {
      PortfolioComplete(symbols[1..], draws[1..], now);
    }
  }

  /** Every portfolio entry keeps the promises of a quote for its row. */
  lemma {:induction false} PortfolioValid(symbols: seq<string>, draws: seq<QuoteDraws>, now: string)
    requires |draws| >= |symbols|
    requires forall i :: 0 <= i < |draws| ==> draws[i].Valid()
    ensures forall i :: 0 <= i < |Portfolio(symbols, draws, now)| ==> Genuine(Portfolio(symbols, draws, now)[i])
    decreases |symbols|
  {
    if |symbols| > 0 {
      PortfolioValid(symbols[1..], draws[1..], now);
      var r := Portfolio(symbols, draws, now);
      var rest := Portfolio(symbols[1..], draws[1..], now);
      if Registry.IsKnown(symbols[0]) {
        KnownQuoteGenuine(symbols[0], draws[0], now);
        var q := StockQuote(symbols[0], draws[0], now).quote;
        assert r == [q] + rest;
        AllCons(q, rest, x => Genuine(x));
      }
    }
  }

  /** The quote of a known symbol is genuine. */
  lemma KnownQuoteGenuine(symbol: string, d: QuoteDraws, now: string)
    requires Registry.IsKnown(symbol)
    requires d.Valid()
    ensures StockQuote(symbol, d, now).Found? && Genuine(StockQuote(symbol, d, now).quote)
  {
    StockQuoteValid(symbol, d, now);
    NameLooksUpItself(symbol);
  }

  /** A property of the head and of every later element holds of every
      element. */
  lemma AllCons<T>(q: T, rest: seq<T>, p: T -> bool)
    requires p(q)
    requires forall i :: 0 <= i < |rest| ==> p(rest[i])
    ensures forall i :: 0 <= i < |[q] + rest| ==> p(([q] + rest)[i])
  {
    forall i | 0 <= i < |[q] + rest|
      ensures p(([q] + rest)[i])
    {
      if i > 0 {
        assert ([q] + rest)[i] == rest[i - 1];
      }
    }
  }

  /** A symbol resolves to the same row as the table name it cleans to. */
  lemma NameLooksUpItself(symbol: string)
    requires Registry.IsKnown(symbol)
    ensures Registry.Lookup(Registry.CleanSymbol(symbol)) == Registry.Lookup(symbol)
  {
    var stock := Registry.Lookup(symbol).value;
    var i :| 0 <= i < |Registry.Stocks| && Registry.Stocks[i] == stock;
    Registry.KeysResolve(i);
  }

  function ChangePercentOf(q: Quote): real {
    q.changePercent
  }

  predicate IsGain(q: Quote) {
    q.changePercent > 0.0
  }

  predicate IsLoss(q: Quote) {
    q.changePercent < 0.0
  }

  /** The outcome of `get_top_gainers_losers`. */
  datatype Movers = Movers(gainers: seq<Quote>, losers: seq<Quote>, timestamp: string, source: string, note: string)

  /** The symbols ranked: the first `2 * count` table keys, as the slice
      `list(STOCK_DATA.keys())[:count * 2]` takes them. */
  function RankedSymbols(count: int): seq<string> {
    Sorting.Take(Registry.Names(), count * 2)
  }

  /** `all_stocks.sort(key=change_percent, reverse=True)`: a stable sort,
      largest change first. */
  function Rank(quotes: seq<Quote>): seq<Quote> {
    Sorting.SortBy(quotes, ChangePercentOf, true)
  }

  /** The first `count` gains of the ranked list. */
  function Gainers(ranked: seq<Quote>, count: int): seq<Quote> {
    Sorting.Take(Sorting.Filter(ranked, IsGain), count)
  }

  /** The losers as the generator computes them: the first `count` losses
      of the ranked list (that is, the mildest drops), re-sorted so the
      largest drop comes first. */
  function Losers(ranked: seq<Quote>, count: int): seq<Quote> {
    Sorting.SortBy(Sorting.Take(Sorting.Filter(ranked, IsLoss), count), ChangePercentOf, false)
  }

  /** `get_top_gainers_losers(count)`, with the losers corrected to the
      largest drops. */
  function TopGainersLosers(count: int, draws: seq<QuoteDraws>, now: string): (r: Movers)
    requires |draws| >= |RankedSymbols(count)|
    ensures r.source == Source && r.note == Note && r.timestamp == now
  {
    MoversOf(Rank(Portfolio(RankedSymbols(count), draws, now)), count, now)
  }

  /** The movers of the ranked quotes. The losers are the intended ones,
      the `count` largest drops (see `WorstLosers`). */
  function MoversOf(ranked: seq<Quote>, count: int, now: string): Movers {
    Movers(Gainers(ranked, count), WorstLosers(ranked, count), now, Source, Note)
  }

  /** The gainers are rising quotes of the ranked rows, largest first; the
      losers falling ones, largest drop first; at most `count` of each. */
  lemma TopGainersLosersShape(count: int, draws: seq<QuoteDraws>, now: string)
    requires |draws| >= |RankedSymbols(count)|
    ensures var r := TopGainersLosers(count, draws, now);
      var qs := Portfolio(RankedSymbols(count), draws, now);
      && (forall i :: 0 <= i < |r.gainers| ==> IsGain(r.gainers[i]) && r.gainers[i] in qs)
      && (forall i :: 0 <= i < |r.losers| ==> IsLoss(r.losers[i]) && r.losers[i] in qs)
      && Sorting.SortedBy(r.gainers, ChangePercentOf, true)
      && Sorting.SortedBy(r.losers, ChangePercentOf, false)
      && (count >= 0 ==> |r.gainers| <= count && |r.losers| <= count)
  {
    var qs := Portfolio(RankedSymbols(count), draws, now);
    var ranked := Rank(qs);
    GainersAreGains(qs, count);
    WorstLosersAreLosses(ranked, count);
    var l := WorstLosers(ranked, count);
    forall i | 0 <= i < |l|
      ensures l[i] in qs
    {
      assert l[i] in multiset(ranked);
    }
  }

  /** Only the first `2 * count` table rows are quoted, all of them, in
      table order. */
  lemma RankedAreFirstRows(count: int, draws: seq<QuoteDraws>, now: string)
    requires |draws| >= |RankedSymbols(count)|
    ensures QuoteNames(Portfolio(RankedSymbols(count), draws, now)) == RankedSymbols(count)
  {
    var syms := RankedSymbols(count);
    Sorting.TakeIsPrefix(Registry.Names(), count * 2);
    forall i | 0 <= i < |syms|
      ensures Registry.IsKnown(syms[i]) && Registry.CleanSymbol(syms[i]) == syms[i]
    {
      Registry.KeysResolve(i);
    }
    FilterAll(syms, Registry.IsKnown);
    PortfolioNames(syms, draws, now);
  }

  /** Keeping the elements that all pass keeps everything. */
  lemma {:induction false} FilterAll<T>(s: seq<T>, p: T -> bool)
    requires forall i :: 0 <= i < |s| ==> p(s[i])
    ensures Sorting.Filter(s, p) == s
  {
    if |s| > 0 {
      FilterAll(s[1..], p);
    }
  }

  /** Ranking keeps every quote and orders ties as they came: the quotes
      with any one change percent appear in the ranked list in table order. */
  lemma RankIsStablePermutation(quotes: seq<Quote>, k: real)
    ensures multiset(Rank(quotes)) == multiset(quotes)
    ensures Sorting.SortedBy(Rank(quotes), ChangePercentOf, true)
    ensures Sorting.KeyClass(Rank(quotes), ChangePercentOf, k) == Sorting.KeyClass(quotes, ChangePercentOf, k)
  {
    Sorting.SortByIsStable(quotes, ChangePercentOf, true, k);
  }

  /** Gainers: all rising, largest first, at most `count` of them, and
      taken from the ranked quotes. */
  lemma GainersAreGains(quotes: seq<Quote>, count: int)
    ensures var g := Gainers(Rank(quotes), count);
      && (forall i :: 0 <= i < |g| ==> IsGain(g[i]) && g[i] in quotes)
      && Sorting.SortedBy(g, ChangePercentOf, true)
      && (count >= 0 ==> |g| <= count)
  {
    var ranked := Rank(quotes);
    var p := Sorting.Filter(ranked, IsGain);
    var g := Gainers(ranked, count);
    Sorting.FilterSorted(ranked, IsGain, ChangePercentOf, true);
    Sorting.TakeOfSorted(p, count, ChangePercentOf, true);
    Sorting.TakeIsPrefix(p, count);
    forall i | 0 <= i < |g|
      ensures IsGain(g[i]) && g[i] in quotes
    {
      assert g[i] == p[i];
      assert g[i] in multiset(ranked);
    }
  }

  /** No rising quote left out of the gainers beats one that was kept, and
      one is left out only when `count` gainers were kept: the gainers are
      the `min(count, number of gains)` largest. */
  lemma GainersAreTop(quotes: seq<Quote>, count: int)
    ensures var g := Gainers(Rank(quotes), count);
      forall q :: q in quotes && IsGain(q) && q !in g ==>
        && (forall i :: 0 <= i < |g| ==> q.changePercent <= g[i].changePercent)
        && (count >= 0 ==> |g| == count)
  {
    var ranked := Rank(quotes);
    var p := Sorting.Filter(ranked, IsGain);
    var g := Gainers(ranked, count);
    Sorting.FilterSorted(ranked, IsGain, ChangePercentOf, true);
    forall q | q in quotes && IsGain(q) && q !in g
      ensures forall i :: 0 <= i < |g| ==> q.changePercent <= g[i].changePercent
      ensures count >= 0 ==> |g| == count
    {
      assert q in multiset(ranked);
      assert q in p;
      Sorting.LeftOutFollows(p, count, ChangePercentOf, true, q);
    }
  }

  /** Losers: all falling, largest drop first, at most `count` of them,
      and taken from the ranked quotes. */
  lemma LosersAreLosses(quotes: seq<Quote>, count: int)
    ensures var l := Losers(Rank(quotes), count);
      && (forall i :: 0 <= i < |l| ==> IsLoss(l[i]) && l[i] in quotes)
      && Sorting.SortedBy(l, ChangePercentOf, false)
      && (count >= 0 ==> |l| <= count)
  {
    var ranked := Rank(quotes);
    var p := Sorting.Filter(ranked, IsLoss);
    var t := Sorting.Take(p, count);
    var l := Losers(ranked, count);
    Sorting.TakeIsPrefix(p, count);
    assert multiset(l) == multiset(t);
    forall i | 0 <= i < |l|
      ensures IsLoss(l[i]) && l[i] in quotes
    {
      assert l[i] in multiset(t);
      var k :| 0 <= k < |t| && t[k] == l[i];
      assert t[k] == p[k];
      assert l[i] in multiset(ranked);
    }
  }

  /** As written, the losers are the mildest drops: no falling quote left
      out drops less than one that was kept, and one is left out only when
      `count` losers were kept. */
  lemma LosersAreMildest(quotes: seq<Quote>, count: int)
    ensures var l := Losers(Rank(quotes), count);
      forall q :: q in quotes && IsLoss(q) && q !in l ==>
        && (forall i :: 0 <= i < |l| ==> q.changePercent <= l[i].changePercent)
        && (count >= 0 ==> |l| == count)
  {
    var ranked := Rank(quotes);
    var p := Sorting.Filter(ranked, IsLoss);
    var t := Sorting.Take(p, count);
    var l := Losers(ranked, count);
    Sorting.FilterSorted(ranked, IsLoss, ChangePercentOf, true);
    assert multiset(l) == multiset(t);
    forall q | q in quotes && IsLoss(q) && q !in l
      ensures forall i :: 0 <= i < |l| ==> q.changePercent <= l[i].changePercent
      ensures count >= 0 ==> |l| == count
    {
      assert q in multiset(ranked);
      assert q in p;
      assert q !in multiset(t);
      Sorting.LeftOutFollows(p, count, ChangePercentOf, true, q);
      forall i | 0 <= i < |l|
        ensures q.changePercent <= l[i].changePercent
      {
        assert l[i] in multiset(t);
      }
    }
  }

  /** The losers that were evidently intended: the `count` largest drops,
      largest first. */
  function WorstLosers(ranked: seq<Quote>, count: int): seq<Quote> {
    Sorting.Take(Sorting.Filter(Sorting.SortBy(ranked, ChangePercentOf, false), IsLoss), count)
  }

  /** The intended losers are falling, largest drop first, at most `count`
      of them, and taken from the quotes. */
  lemma WorstLosersAreLosses(quotes: seq<Quote>, count: int)
    ensures var l := WorstLosers(quotes, count);
      && (forall i :: 0 <= i < |l| ==> IsLoss(l[i]) && l[i] in quotes)
      && Sorting.SortedBy(l, ChangePercentOf, false)
      && (count >= 0 ==> |l| <= count)
  {
    var asc := Sorting.SortBy(quotes, ChangePercentOf, false);
    var p := Sorting.Filter(asc, IsLoss);
    var l := WorstLosers(quotes, count);
    Sorting.FilterSorted(asc, IsLoss, ChangePercentOf, false);
    Sorting.TakeOfSorted(p, count, ChangePercentOf, false);
    Sorting.TakeIsPrefix(p, count);
    forall i | 0 <= i < |l|
      ensures IsLoss(l[i]) && l[i] in quotes
    {
      assert l[i] == p[i];
      assert l[i] in multiset(asc);
    }
  }

  /** No falling quote left out of the intended losers drops more than one
      that was kept, and one is left out only when `count` losers were
      kept: the losers are the `min(count, number of losses)` largest drops. */
  lemma WorstLosersAreWorst(quotes: seq<Quote>, count: int)
    ensures var l := WorstLosers(quotes, count);
      forall q :: q in quotes && IsLoss(q) && q !in l ==>
        && (forall i :: 0 <= i < |l| ==> l[i].changePercent <= q.changePercent)
        && (count >= 0 ==> |l| == count)
  {
    var asc := Sorting.SortBy(quotes, ChangePercentOf, false);
    var p := Sorting.Filter(asc, IsLoss);
    var l := WorstLosers(quotes, count);
    Sorting.FilterSorted(asc, IsLoss, ChangePercentOf, false);
    forall q | q in quotes && IsLoss(q) && q !in l
      ensures forall i :: 0 <= i < |l| ==> l[i].changePercent <= q.changePercent
      ensures count >= 0 ==> |l| == count
    {
      assert q in multiset(asc);
      assert q in p;
      Sorting.LeftOutFollows(p, count, ChangePercentOf, false, q);
    }
  }

  /** With `count == 1` the first two rows (RELIANCE and TCS) are ranked.
      When the first falls by 1% and the second by 3%, the as-written losers
      list holds the 1% drop, while the intended one holds the 3% drop. */
  lemma LosersMissLargestDrop(a: Quote, b: Quote)
    requires a.changePercent == -1.0 && b.changePercent == -3.0
    ensures Losers(Rank([a, b]), 1) == [a]
    ensures WorstLosers([a, b], 1) == [b]
  {
    Sorting.SortByPair(a, b, ChangePercentOf, true);
    Sorting.FilterPair(a, b, IsLoss);
    assert Sorting.Take([a, b], 1) == [a];
    Sorting.SortBySingleton(a, ChangePercentOf, false);
    Sorting.SortByPair(a, b, ChangePercentOf, false);
    Sorting.FilterPair(b, a, IsLoss);
    assert Sorting.Take([b, a], 1) == [b];
  }

  /** Zero-change quotes land in neither list, as written or corrected. */
  lemma UnchangedInNeither(quotes: seq<Quote>, count: int, q: Quote)
    requires q.changePercent == 0.0
    ensures q !in Gainers(Rank(quotes), count)
    ensures q !in Losers(Rank(quotes), count)
    ensures q !in WorstLosers(Rank(quotes), count)
  {
    GainersAreGains(quotes, count);
    LosersAreLosses(quotes, count);
    WorstLosersAreLosses(Rank(quotes), count);
  }

  const Nifty50Base: real := 22500.0
  const BankNiftyBase: real := 48200.0

  /** One index reading of `get_market_summary`. */
  datatype IndexReading = IndexReading(value: real, change: real, changePercent: real, timestamp: string)

  /** The `NIFTY 50` and `BANK NIFTY` entries, with the source and note. */
  datatype MarketSummary = MarketSummary(nifty50: IndexReading, bankNifty: IndexReading, source: string, note: string)

  function Reading(m: Move, now: string): IndexReading {
    IndexReading(m.price, m.change, m.changePercent, now)
  }

  /** `get_market_summary()`: the two indices move by `gauss(0, 1.0)` and
      `gauss(0, 1.2)` percent, given as the deviates `z1` and `z2`. */
  function MarketSummaryOf(z1: real, z2: real, now: string): (r: MarketSummary)
    ensures r.source == Source && r.note == Note
    ensures r.nifty50.timestamp == now && r.bankNifty.timestamp == now
  {
    MarketSummary(
      Reading(RoundedMove(Nifty50Base, Deviate(1.0, z1)), now),
      Reading(RoundedMove(BankNiftyBase, Deviate(1.2, z2)), now),
      Source,
      Note)
  }

  /** Both readings agree with their draws and bases: the value is the base
      plus the change exactly, and each figure is within half a cent of the
      move the draw asks for. */
  lemma MarketSummaryConsistent(z1: real, z2: real, now: string)
    ensures var s := MarketSummaryOf(z1, z2, now);
      && Consistent(Nifty50Base, Deviate(1.0, z1), Move(s.nifty50.value, s.nifty50.change, s.nifty50.changePercent))
      && Consistent(BankNiftyBase, Deviate(1.2, z2), Move(s.bankNifty.value, s.bankNifty.change, s.bankNifty.changePercent))
      && s.nifty50.value == Nifty50Base + s.nifty50.change
      && s.bankNifty.value == BankNiftyBase + s.bankNifty.change
  {
    RoundedMoveConsistent(Nifty50Base, Deviate(1.0, z1));
    RoundedMoveConsistent(BankNiftyBase, Deviate(1.2, z2));
    assert OnCents(Nifty50Base) && OnCents(BankNiftyBase);
  }
}

=== FILE: mock_quote.dfy ===
/** Quote synthesis of the mock generator (`MockNSEData.get_stock_quote`
    and `_calculate_price_movement`). Every random draw is a parameter. */
module MockQuote {
  import opened Values
  import opened Rounding
  import Registry

  const MinVolume: int := 1_000_000
  const MaxVolume: int := 50_000_000
  const Source: string := "Mock Data Generator"
  const Note: string := "This is simulated data for demonstration purposes"

  /** The draws one quote consumes, in the order the generator makes them:
      a standard normal deviate `z` (scaled by the stock's volatility, as
      `random.gauss(0, volatility * 100)` does), the `randint` volume, and the
      three `uniform` jitters of open, high and low. */
  datatype QuoteDraws = QuoteDraws(z: real, volume: int, openJitter: real, highJitter: real, lowJitter: real) {
    /** The ranges `randint(1000000, 50000000)`, `uniform(-0.01, 0.01)` and
        `uniform(0, 0.02)` produce. */
    predicate Valid() {
      && MinVolume <= volume <= MaxVolume
      && -0.01 <= openJitter <= 0.01
      && 0.0 <= highJitter <= 0.02
      && 0.0 <= lowJitter <= 0.02
    }
  }

  /** A rounded price move: new price, change and change percent. */
  datatype Move = Move(price: real, change: real, changePercent: real)

  /** A multiplication fact the solver does not find by itself. */
  lemma ScaleBound(b: real, d: real, e: real)
    requires b >= 0.0 && -e <= d <= e
    ensures b * d <= b * e
    ensures -(b * e) <= b * d
  {
  }

  lemma MulBounds(b: real, d: real, lo: real, hi: real)
    requires b >= 0.0 && lo <= d <= hi
    ensures b * lo <= b * d
    ensures b * d <= b * hi
  {
  }

  /** The figures of a move of `base` by `pct` percent agree with the draw
      and with each other up to rounding: each is within half a cent of its
      unrounded value, the change has the sign of the change percent, and,
      on a base on the cent grid, the price is exactly base plus change. */
  predicate Consistent(base: real, pct: real, m: Move) {
    && pct - 0.005 < m.changePercent <= pct + 0.005
    && base * pct / 100.0 - 0.005 < m.change <= base * pct / 100.0 + 0.005
    && (OnCents(base) ==> m.price == base + m.change)
    && (base > 0.0 && m.changePercent > 0.0 ==> m.change >= 0.0)
    && (base > 0.0 && m.changePercent < 0.0 ==> m.change <= 0.0)
    && OnCents(m.price) && OnCents(m.change) && OnCents(m.changePercent)
  }

  /** Moving `base` by `pct` percent, each figure rounded to the cent. */
  function RoundedMove(base: real, pct: real): Move {
    var change := base * (pct / 100.0);
    Move(Round2(base + change), Round2(change), Round2(pct))
  }

  /** The rounded figures of every move are consistent. */
  lemma RoundedMoveConsistent(base: real, pct: real)
    ensures Consistent(base, pct, RoundedMove(base, pct))
  {
    var change := base * (pct / 100.0);
    var m := RoundedMove(base, pct);
    assert change == base * pct / 100.0;
    if OnCents(base) {
      Round2Shift(base, change);
    }
    Round2Sign(pct);
    Round2KeepsSign(change);
    if base > 0.0 && m.changePercent > 0.0 {
      MulBounds(base, pct, 0.0, pct);
    }
    if base > 0.0 && m.changePercent < 0.0 {
      MulBounds(base, pct, pct, 0.0);
    }
    Round2Error(pct);
    Round2Error(change);
    Round2OnCents(base + change);
    Round2OnCents(change);
    Round2OnCents(pct);
  }

  /** `_calculate_price_movement`: the change percent is the draw
      `gauss(0, volatility * 100)`, written as `volatility * 100 * z`. */
  function PriceMovement(basePrice: real, volatility: real, z: real): (r: Move)
    ensures Consistent(basePrice, Deviate(volatility * 100.0, z), r)
  {
    RoundedMoveConsistent(basePrice, Deviate(volatility * 100.0, z));
    RoundedMove(basePrice, Deviate(volatility * 100.0, z))
  }

  /** A draw of `gauss(0, sigma)`, given as the standard deviate `z`. */
  function Deviate(sigma: real, z: real): real {
    sigma * z
  }

  /** A synthesised quote. `symbol` carries the `.NS` suffix, `name` does not. */
  datatype Quote = Quote(
    symbol: string,
    name: string,
    price: real,
    previousClose: real,
    change: real,
    changePercent: real,
    volume: int,
    open: real,
    high: real,
    low: real,
    sector: string,
    currency: string,
    exchange: string,
    timestamp: string,
    source: string,
    note: string)

  /** The outcome of `get_stock_quote`: a quote, or the error record naming
      the symbol as given and every key of the table. */
  datatype QuoteResult =
    | Found(quote: Quote)
    | NotFound(error: string, symbol: string, availableSymbols: seq<string>)

  /** The quote for a known table row. */
  function Synthesise(stock: Registry.Stock, d: QuoteDraws, now: string): Quote {
    Assemble(stock, PriceMovement(stock.basePrice, stock.volatility, d.z), d, now)
  }

  /** The quote for a row whose price has moved by `m`. */
  function Assemble(stock: Registry.Stock, m: Move, d: QuoteDraws, now: string): Quote {
    Quote(
      stock.name + ".NS",
      stock.name,
      m.price,
      stock.basePrice,
      m.change,
      m.changePercent,
      d.volume,
      Raise(stock.basePrice, d.openJitter),
      Raise(m.price, d.highJitter),
      Lower(m.price, d.lowJitter),
      stock.sector,
      "INR",
      "NSE",
      now,
      Source,
      Note)
  }

  /** `get_stock_quote(symbol)`. `now` is the formatted clock reading. */
  function StockQuote(symbol: string, d: QuoteDraws, now: string): (r: QuoteResult)
    ensures r.NotFound? <==> !Registry.IsKnown(symbol)
    ensures r.NotFound? ==>
              r == NotFound("Stock symbol " + symbol + " not found in mock database", symbol, Registry.Names())
    ensures r.Found? ==> r.quote.name == Registry.CleanSymbol(symbol) && r.quote.name in Registry.Names()
    ensures r.Found? ==> r.quote.symbol == Registry.CleanSymbol(symbol) + ".NS"
  {
    match Registry.Lookup(symbol)
    case None =>
      NotFound("Stock symbol " + symbol + " not found in mock database", symbol, Registry.Names())
    case Some(stock) =>
      Found(Synthesise(stock, d, now))
  }

  /** The quote of a known symbol keeps every promise of `ValidQuote`
      against its table row, whatever the draws within their ranges. */
  lemma StockQuoteValid(symbol: string, d: QuoteDraws, now: string)
    requires Registry.IsKnown(symbol)
    requires d.Valid()
    ensures StockQuote(symbol, d, now).Found?
    ensures ValidQuote(StockQuote(symbol, d, now).quote, Registry.Lookup(symbol).value)
    ensures var stock := Registry.Lookup(symbol).value;
      Consistent(stock.basePrice, Deviate(stock.volatility * 100.0, d.z), QuoteMove(StockQuote(symbol, d, now).quote))
  {
    var stock := Registry.Lookup(symbol).value;
    Registry.RowWellFormed(stock);
    SynthesiseValid(stock, d, now);
  }

  /** The price, change and change percent of a quote. */
  function QuoteMove(q: Quote): Move {
    Move(q.price, q.change, q.changePercent)
  }

  /** What every synthesised quote promises about itself and its row. */
  ghost predicate ValidQuote(q: Quote, stock: Registry.Stock) {
    && q.name == stock.name
    && q.symbol == stock.name + ".NS"
    && q.previousClose == stock.basePrice
    && q.sector == stock.sector
    && MoveAgrees(q)
    && MinVolume <= q.volume <= MaxVolume
    && OpenNearClose(q)
    && HighLowBracketPrice(q)
  }

  /** A quote of some table row, keeping every promise of `ValidQuote`
      against the row its name looks up. */
  ghost predicate Genuine(q: Quote) {
    Registry.Lookup(q.name).Some? && ValidQuote(q, Registry.Lookup(q.name).value)
  }

  /** Price, change and change percent agree: the price is exactly the
      previous close plus the change, on the cent grid, the change has the
      sign of the change percent, and both figures are the rounded move of
      the previous close by one and the same percentage. */
  ghost predicate MoveAgrees(q: Quote) {
    && q.price == q.previousClose + q.change
    && OnCents(q.price)
    && (q.changePercent > 0.0 ==> q.change >= 0.0)
    && (q.changePercent < 0.0 ==> q.change <= 0.0)
    && FromOneDraw(q)
  }

  /** Some percentage moves the previous close to this quote's figures,
      up to rounding. */
  ghost predicate FromOneDraw(q: Quote) {
    exists pct :: Consistent(q.previousClose, pct, QuoteMove(q))
  }

  /** A 50% move of TCS's 3850.75 close cannot come with a change of one
      paisa: no percentage rounds to both. */
  lemma LopsidedMoveRejected(q: Quote)
    requires q.previousClose == 3850.75 && q.changePercent == 50.0 && q.change == 0.01
    ensures !FromOneDraw(q)
  {
  }

  /** The open is within one percent of the previous close, plus rounding. */
  predicate OpenNearClose(q: Quote) {
    -(q.previousClose / 100.0) - 0.005 < q.open - q.previousClose <= q.previousClose / 100.0 + 0.005
  }

  /** A non-negative price lies between the low and the high. */
  predicate HighLowBracketPrice(q: Quote) {
    q.price >= 0.0 ==> q.low <= q.price <= q.high
  }

  lemma SynthesiseValid(stock: Registry.Stock, d: QuoteDraws, now: string)
    requires Registry.WellFormed(stock)
    requires d.Valid()
    ensures ValidQuote(Synthesise(stock, d, now), stock)
    ensures Consistent(stock.basePrice, Deviate(stock.volatility * 100.0, d.z), QuoteMove(Synthesise(stock, d, now)))
  {
    var m := PriceMovement(stock.basePrice, stock.volatility, d.z);
    RoundedMoveConsistent(stock.basePrice, Deviate(stock.volatility * 100.0, d.z));
    assert QuoteMove(Synthesise(stock, d, now)) == m;
    assert Consistent(Synthesise(stock, d, now).previousClose, Deviate(stock.volatility * 100.0, d.z), m);
    OpenWithinOnePercent(stock.basePrice, d.openJitter);
    HighLowBracket(m.price, d.highJitter, d.lowJitter);
  }

  /** The open is the base moved by at most one percent, then rounded. */
  lemma OpenWithinOnePercent(b: real, u: real)
    requires b > 0.0 && -0.01 <= u <= 0.01
    ensures -(b / 100.0) - 0.005 < Raise(b, u) - b <= b / 100.0 + 0.005
    ensures OnCents(Raise(b, u))
  {
    Round2Error(b * (1.0 + u));
    OnePercentArith(b, u, Round2(b * (1.0 + u)));
    Round2OnCents(b * (1.0 + u));
  }

  lemma OnePercentArith(b: real, u: real, r: real)
    requires b > 0.0 && -0.01 <= u <= 0.01
    requires b * (1.0 + u) - 0.005 < r <= b * (1.0 + u) + 0.005
    ensures -(b / 100.0) - 0.005 < r - b <= b / 100.0 + 0.005
  {
    ScaleBound(b, u, 0.01);
    var bu := b * u;
    assert b * (1.0 + u) == b + bu;
    assert -(b * 0.01) <= bu;
    assert b * 0.01 == b / 100.0;
    assert -(b / 100.0) <= bu;
    assert b + bu - 0.005 < r;
  }

  /** High and low bracket a non-negative price already on the cent grid. */
  lemma HighLowBracket(p: real, h: real, l: real)
    requires OnCents(p)
    requires 0.0 <= h <= 0.02 && 0.0 <= l <= 0.02
    ensures p >= 0.0 ==> Lower(p, l) <= p <= Raise(p, h)
    ensures OnCents(Raise(p, h)) && OnCents(Lower(p, l))
  {
    if p >= 0.0 {
      StretchArith(p, h, l);
      Round2Fixes(p);
      Round2Monotone(p, p * (1.0 + h));
      Round2Monotone(p * (1.0 - l), p);
    }
    Round2OnCents(p * (1.0 + h));
    Round2OnCents(p * (1.0 - l));
  }

  lemma StretchArith(p: real, h: real, l: real)
    requires p >= 0.0 && 0.0 <= h && 0.0 <= l
    ensures p * (1.0 - l) <= p <= p * (1.0 + h)
  {
    MulBounds(p, h, 0.0, h);
    MulBounds(p, l, 0.0, l);
    assert p * (1.0 + h) == p + p * h;
    assert p * (1.0 - l) == p - p * l;
  }
}

=== FILE: registry.dfy ===
/** The mock generator's fixed table of NSE stocks and its symbol lookup. */
module Registry {
  import opened Values
  import Text
  import Rounding

  /** One row of the stock table: base price in rupees, daily volatility as
      a fraction, and sector. */
  datatype Stock = Stock(name: string, basePrice: real, volatility: real, sector: string)

  /** The table, in the order of its keys. The order is observable: the
      gainers/losers ranking only looks at a prefix of it. */
  const Stocks: seq<Stock> := [
    Stock("RELIANCE", 2650.50, 0.02, "Energy"),
    Stock("TCS", 3850.75, 0.015, "IT"),
    Stock("INFY", 1580.30, 0.018, "IT"),
    Stock("HDFCBANK", 1685.90, 0.02, "Banking"),
    Stock("ICICIBANK", 1150.40, 0.022, "Banking"),
    Stock("HINDUNILVR", 2420.60, 0.012, "FMCG"),
    Stock("ITC", 465.80, 0.015, "FMCG"),
    Stock("SBIN", 785.50, 0.025, "Banking"),
    Stock("BHARTIARTL", 1545.20, 0.018, "Telecom"),
    Stock("KOTAKBANK", 1775.30, 0.02, "Banking"),
    Stock("LT", 3580.40, 0.02, "Infrastructure"),
    Stock("AXISBANK", 1120.90, 0.023, "Banking"),
    Stock("ASIANPAINT", 2890.50, 0.015, "Paints"),
    Stock("MARUTI", 12850.75, 0.022, "Automobile"),
    Stock("BAJFINANCE", 7250.60, 0.025, "Finance"),
    Stock("WIPRO", 565.40, 0.018, "IT"),
    Stock("TECHM", 1685.30, 0.019, "IT"),
    Stock("HCLTECH", 1890.80, 0.017, "IT"),
    Stock("SUNPHARMA", 1745.90, 0.016, "Pharma"),
    Stock("TITAN", 3420.50, 0.02, "Jewellery")
  ]

  /** The table's keys, in order. */
  function Names(): (r: seq<string>)
    ensures |r| == |Stocks|
    ensures forall i :: 0 <= i < |Stocks| ==> r[i] == Stocks[i].name
  {
    seq(|Stocks|, i requires 0 <= i < |Stocks| => Stocks[i].name)
  }

  /** A row is usable by the generator: a positive price on the cent grid,
      a volatility between 0 and 1, and a key of upper-case letters. */
  predicate WellFormed(s: Stock) {
    && s.basePrice > 0.0
    && Rounding.OnCents(s.basePrice)
    && 0.0 < s.volatility < 1.0
    && UpperName(s.name)
  }

  /** A non-empty run of upper-case ASCII letters. */
  predicate UpperName(n: string) {
    |n| > 0 && forall i :: 0 <= i < |n| ==> 'A' <= n[i] <= 'Z'
  }

  lemma StocksWellFormed()
    ensures forall i :: 0 <= i < |Stocks| ==> WellFormed(Stocks[i])
  {
    StockPricesUsable();
    StockNamesUpper();
  }

  lemma StockPricesUsable()
    ensures forall i :: 0 <= i < |Stocks| ==>
      Stocks[i].basePrice > 0.0 && Rounding.OnCents(Stocks[i].basePrice) && 0.0 < Stocks[i].volatility < 1.0
  {
  }

  lemma StockNamesUpper()
    ensures forall i :: 0 <= i < |Stocks| ==> UpperName(Stocks[i].name)
  {
    FirstNamesUpper();
    LastNamesUpper();
  }

  lemma FirstNamesUpper()
    ensures forall i :: 0 <= i < 10 ==> UpperName(Stocks[i].name)
  {
  }

  lemma LastNamesUpper()
    ensures forall i :: 10 <= i < |Stocks| ==> UpperName(Stocks[i].name)
  {
  }

  lemma RowWellFormed(s: Stock)
    requires s in Stocks
    ensures WellFormed(s)
  {
    StocksWellFormed();
  }

  /** The symbol normalisation of the mock lookup: every `.NS` is removed
      (case-sensitively), then the rest is upper-cased. */
  function CleanSymbol(symbol: string): string {
    Text.Upper(Text.RemoveAll(symbol, ".NS"))
  }

  /** The first row of `rows` whose key is `name`. */
  function Find(rows: seq<Stock>, name: string): (r: Option<Stock>)
    ensures r.Some? <==> exists i :: 0 <= i < |rows| && rows[i].name == name
    ensures r.Some? ==> r.value in rows && r.value.name == name
  {
    if |rows| == 0 then None
    else if rows[0].name == name then Some(rows[0])
    else
      var r := Find(rows[1..], name);
      assert forall i :: 1 <= i < |rows| ==> rows[i] == rows[1..][i - 1];
      r
  }

  /** The table row a caller's symbol refers to, if any. */
  function Lookup(symbol: string): (r: Option<Stock>)
    ensures r.Some? <==> CleanSymbol(symbol) in Names()
    ensures r.Some? ==> r.value in Stocks && r.value.name == CleanSymbol(symbol)
  {
    Find(Stocks, CleanSymbol(symbol))
  }

  predicate IsKnown(symbol: string) {
    Lookup(symbol).Some?
  }

  /** Every key of the table, bare or with the `.NS` suffix, resolves to a
      row with that key. */
  lemma {:induction false} KeysResolve(i: int)
    requires 0 <= i < |Stocks|
    ensures CleanSymbol(Stocks[i].name) == Stocks[i].name
    ensures CleanSymbol(Stocks[i].name + ".NS") == Stocks[i].name
    ensures IsKnown(Stocks[i].name) && IsKnown(Stocks[i].name + ".NS")
  {
    StocksWellFormed();
    var n := Stocks[i].name;
    assert '.' !in n by {
      assert forall j :: 0 <= j < |n| ==> n[j] != '.';
    }
    Text.RemoveAllAbsent(n, ".NS");
    Text.RemoveAllSuffix(n, ".NS");
    Text.UpperOfUpperText(n);
    assert Names()[i] == n;
  }

  /** No key of the table contains a dot. */
  lemma DottedNotKey(u: string)
    requires '.' in u
    ensures u !in Names()
  {
    StocksWellFormed();
  }

  /** Only the upper-case suffix is stripped: `reliance.ns` keeps its
      lower-case `.ns`, upper-cases to `RELIANCE.NS`, and is not a key. */
  lemma LowerCaseSuffixNotStripped()
    ensures CleanSymbol("reliance.ns") == "RELIANCE.NS"
    ensures !IsKnown("reliance.ns")
  {
    LowerCaseClean();
    var u := "RELIANCE.NS";
    assert u[8] == '.';
    DottedNotKey(u);
  }

  lemma LowerCaseClean()
    ensures CleanSymbol("reliance.ns") == "RELIANCE.NS"
  {
    LowerCaseKept();
    LowerCaseUpper();
  }

  lemma LowerCaseKept()
    ensures Text.RemoveAll("reliance.ns", ".NS") == "reliance.ns"
  {
    var s := "reliance.ns";
    assert forall i :: 0 <= i < |s| ==> s[i] != 'N';
    Text.RemoveAllMissing(s, ".NS", 1);
  }

  lemma LowerCaseUpper()
    ensures Text.Upper("reliance.ns") == "RELIANCE.NS"
  {
    var s := "reliance.ns";
    var u := Text.Upper(s);
    forall i | 0 <= i < |s|
      ensures u[i] == "RELIANCE.NS"[i]
    {
      assert u[i] == Text.UpperChar(s[i]);
    }
  }

  /** Every occurrence is removed, not only a trailing one: `TC.NSS` is TCS. */
  lemma InnerSuffixStripped()
    ensures CleanSymbol("TC.NSS") == "TCS"
    ensures Lookup("TC.NSS") == Some(Stocks[1])
  {
    assert Text.RemoveAll("S", ".NS") == "S";
    assert ".NSS"[..3] == ".NS" && ".NSS"[3..] == "S";
    assert Text.RemoveAll(".NSS", ".NS") == "S";
    assert "C.NSS"[..3] != ".NS" && "C.NSS"[1..] == ".NSS";
    assert Text.RemoveAll("C.NSS", ".NS") == "CS";
    assert "TC.NSS"[..3] != ".NS" && "TC.NSS"[1..] == "C.NSS";
    assert Text.RemoveAll("TC.NSS", ".NS") == "TCS";
    Text.UpperOfUpperText("TCS");
  }
}

=== FILE: rounding.dfy ===
/** Python's `round(x, 2)` on the reals. */
module Rounding {

  /** Rounds to the nearest cent, halves upwards. */
  function Round2(x: real): real {
    (100.0 * x + 0.5).Floor as real / 100.0
  }

  /** `x` is a whole number of cents. */
  predicate OnCents(x: real) {
    (100.0 * x).Floor as real == 100.0 * x
  }

  lemma FloorOfInt(k: int)
    ensures (k as real).Floor == k
  {
  }

  /** The floor of `k + y` moves with the integer `k`. */
  lemma FloorShift(k: int, y: real)
    ensures (k as real + y).Floor == k + y.Floor
  {
    var f := y.Floor;
    assert f as real <= y < f as real + 1.0;
    assert (k + f) as real <= k as real + y < (k + f) as real + 1.0;
  }

  lemma FloorMonotone(x: real, y: real)
    requires x <= y
    ensures x.Floor <= y.Floor
  {
    assert x.Floor as real <= x <= y < y.Floor as real + 1.0;
  }

  /** Every rounded value is on the cent grid. */
  lemma Round2OnCents(x: real)
    ensures OnCents(Round2(x))
  {
    var k := (100.0 * x + 0.5).Floor;
    assert 100.0 * Round2(x) == k as real;
    FloorOfInt(k);
  }

  /** A value already on the cent grid is unchanged by rounding. */
  lemma Round2Fixes(x: real)
    requires OnCents(x)
    ensures Round2(x) == x
  {
    var k := (100.0 * x).Floor;
    FloorShift(k, 0.5);
    assert (0.5).Floor == 0;
  }

  lemma Round2Monotone(x: real, y: real)
    requires x <= y
    ensures Round2(x) <= Round2(y)
  {
    FloorMonotone(100.0 * x + 0.5, 100.0 * y + 0.5);
  }

  /** Rounding moves a value by at most half a cent. */
  lemma Round2Error(x: real)
    ensures x - 0.005 < Round2(x) <= x + 0.005
  {
    var y := 100.0 * x + 0.5;
    assert y.Floor as real <= y < y.Floor as real + 1.0;
  }

  /** Adding a whole number of cents commutes with rounding. */
  lemma Round2Shift(a: real, x: real)
    requires OnCents(a)
    ensures Round2(a + x) == a + Round2(x)
  {
    var k := (100.0 * a).Floor;
    assert 100.0 * (a + x) + 0.5 == k as real + (100.0 * x + 0.5);
    FloorShift(k, 100.0 * x + 0.5);
  }

  /** A value rounds to a positive amount only from at least half a cent,
      and to a negative amount only from below minus half a cent. */
  lemma Round2Sign(x: real)
    ensures Round2(x) > 0.0 ==> x >= 0.005
    ensures Round2(x) < 0.0 ==> x < -0.005
  {
    var y := 100.0 * x + 0.5;
    assert y.Floor as real <= y < y.Floor as real + 1.0;
  }

  /** Rounding keeps the weak sign of its argument. */
  lemma Round2KeepsSign(x: real)
    ensures x >= 0.0 ==> Round2(x) >= 0.0
    ensures x <= 0.0 ==> Round2(x) <= 0.0
  {
    Round2Fixes(0.0);
    if x >= 0.0 {
      Round2Monotone(0.0, x);
    }
    if x <= 0.0 {
      Round2Monotone(x, 0.0);
    }
  }

  /** `round(p * (1 + u), 2)`: `p` raised by the fraction `u`, to the cent. */
  function Raise(p: real, u: real): real {
    Round2(p * (1.0 + u))
  }

  /** `round(p * (1 - u), 2)`: `p` lowered by the fraction `u`, to the cent. */
  function Lower(p: real, u: real): real {
    Round2(p * (1.0 - u))
  }
}

=== FILE: sorting.dfy ===
/** The list operations Python code here uses on its records: list
    comprehension filters, prefix slices `s[:n]`, and the stable
    `list.sort(key=..., reverse=...)`. */
module Sorting {

  /** `[x for x in s if p(x)]`. */
  function Filter<T>(s: seq<T>, p: T -> bool): (r: seq<T>)
    ensures |r| <= |s|
    ensures forall i :: 0 <= i < |r| ==> r[i] in s && p(r[i])
    ensures forall i :: 0 <= i < |s| && p(s[i]) ==> s[i] in r
  {
    if |s| == 0 then []
    else
      assert s == [s[0]] + s[1..];
      (if p(s[0]) then [s[0]] else []) + Filter(s[1..], p)
  }

  /** The length of the Python slice `s[:n]` of a list of length `len`:
      a negative `n` counts back from the end. */
  function PrefixLength(len: nat, n: int): nat {
    if n >= 0 then (if n < len then n else len)
    else if len + n > 0 then len + n
    else 0
  }

  /** The Python slice `s[:n]`. */
  function Take<T>(s: seq<T>, n: int): seq<T> {
    s[..PrefixLength(|s|, n)]
  }

  /** `s[:n]` is a prefix of `s`; for `n >= 0` it has at most `n` elements,
      and it is all of `s` once `n` reaches the length. */
  lemma TakeIsPrefix<T>(s: seq<T>, n: int)
    ensures |Take(s, n)| <= |s|
    ensures forall i :: 0 <= i < |Take(s, n)| ==> Take(s, n)[i] == s[i]
    ensures n >= 0 ==> |Take(s, n)| <= n
    ensures n >= |s| ==> Take(s, n) == s
    ensures n < 0 ==> |Take(s, n)| == if |s| + n > 0 then |s| + n else 0
  {
  }

  /** `a` may come before `b` in the requested direction. */
  predicate Precedes(a: real, b: real, descending: bool) {
    if descending then a >= b else a <= b
  }

  /** `s` is ordered by `key`, non-increasing when `descending`. */
  ghost predicate SortedBy<T>(s: seq<T>, key: T -> real, descending: bool) {
    forall i, j :: 0 <= i < j < |s| ==> Precedes(key(s[i]), key(s[j]), descending)
  }

  /** A sorted list stays sorted when an element that may precede all of
      its elements is put in front. */
  lemma SortedCons<T>(a: T, t: seq<T>, key: T -> real, descending: bool)
    requires SortedBy(t, key, descending)
    requires forall j :: 0 <= j < |t| ==> Precedes(key(a), key(t[j]), descending)
    ensures SortedBy([a] + t, key, descending)
  {
    var s := [a] + t;
    forall i, j | 0 <= i < j < |s|
      ensures Precedes(key(s[i]), key(s[j]), descending)
    {
      assert s[j] == t[j - 1];
      if i > 0 {
        assert s[i] == t[i - 1];
      }
    }
  }

  /** Inserts `x` ahead of the first element it may precede, so that it
      stays in front of the elements whose key equals its own. */
  function Insert<T>(x: T, s: seq<T>, key: T -> real, descending: bool): (r: seq<T>)
    requires SortedBy(s, key, descending)
    ensures SortedBy(r, key, descending)
    ensures multiset(r) == multiset(s) + multiset{x}
  {
    if |s| == 0 then [x]
    else if Precedes(key(x), key(s[0]), descending) then
      SortedCons(x, s, key, descending);
      [x] + s
    else
      var rest := Insert(x, s[1..], key, descending);
      InsertFront(x, s, rest, key, descending);
      [s[0]] + rest
  }

  /** The recursive step of `Insert`: `s[0]` may precede everything in the
      insertion of `x` into the rest of `s`. */
  lemma InsertFront<T>(x: T, s: seq<T>, rest: seq<T>, key: T -> real, descending: bool)
    requires |s| > 0 && SortedBy(s, key, descending)
    requires !Precedes(key(x), key(s[0]), descending)
    requires SortedBy(rest, key, descending)
    requires multiset(rest) == multiset(s[1..]) + multiset{x}
    ensures SortedBy([s[0]] + rest, key, descending)
    ensures multiset([s[0]] + rest) == multiset(s) + multiset{x}
  {
    assert s == [s[0]] + s[1..];
    forall j | 0 <= j < |rest|
      ensures Precedes(key(s[0]), key(rest[j]), descending)
    {
      var y := rest[j];
      assert y in multiset(rest);
      if y != x {
        assert y in multiset(s[1..]);
        assert y in s[1..];
      }
    }
    SortedCons(s[0], rest, key, descending);
  }

  /** `sorted(s, key=key, reverse=descending)`: insertion sort, stable like
      Python's sort. */
  function SortBy<T>(s: seq<T>, key: T -> real, descending: bool): (r: seq<T>)
    ensures SortedBy(r, key, descending)
    ensures multiset(r) == multiset(s)
    ensures |r| == |s|
  {
    if |s| == 0 then []
    else
      assert s == [s[0]] + s[1..];
      Insert(s[0], SortBy(s[1..], key, descending), key, descending)
  }

  /** A one-element list is sorted as it is. */
  lemma SortBySingleton<T>(x: T, key: T -> real, descending: bool)
    ensures SortBy([x], key, descending) == [x]
  {
    assert [x][1..] == [];
  }

  /** A two-element list keeps its order exactly when its first element may
      precede its second. */
  lemma SortByPair<T>(a: T, b: T, key: T -> real, descending: bool)
    ensures SortBy([a, b], key, descending) ==
              if Precedes(key(a), key(b), descending) then [a, b] else [b, a]
  {
    assert [a, b][1..] == [b];
    SortBySingleton(b, key, descending);
    if !Precedes(key(a), key(b), descending) {
      assert [b][1..] == [];
      assert Insert(a, [b], key, descending) == [b] + Insert(a, [], key, descending);
    }
  }

  /** A filter that keeps both elements of a pair keeps the pair. */
  lemma FilterPair<T>(a: T, b: T, p: T -> bool)
    requires p(a) && p(b)
    ensures Filter([a, b], p) == [a, b]
  {
    assert [a, b][1..] == [b];
    assert [b][1..] == [];
  }

  /** The elements of `s` whose key is `k`, in their order in `s`. */
  function KeyClass<T>(s: seq<T>, key: T -> real, k: real): seq<T> {
    if |s| == 0 then []
    else (if key(s[0]) == k then [s[0]] else []) + KeyClass(s[1..], key, k)
  }

  lemma KeyClassCons<T>(a: T, t: seq<T>, key: T -> real, k: real)
    ensures KeyClass([a] + t, key, k) == (if key(a) == k then [a] else []) + KeyClass(t, key, k)
  {
    assert ([a] + t)[0] == a;
    assert ([a] + t)[1..] == t;
  }

  lemma {:induction false} KeyClassInsert<T>(x: T, s: seq<T>, key: T -> real, descending: bool, k: real)
    requires SortedBy(s, key, descending)
    ensures KeyClass(Insert(x, s, key, descending), key, k)
            == (if key(x) == k then [x] else []) + KeyClass(s, key, k)
  {
    if |s| == 0 {
      KeyClassCons(x, s, key, k);
      assert [x] + s == [x];
    } else if Precedes(key(x), key(s[0]), descending) {
      KeyClassCons(x, s, key, k);
    } else {
      var rest := Insert(x, s[1..], key, descending);
      KeyClassCons(s[0], rest, key, k);
      KeyClassInsert(x, s[1..], key, descending, k);
      assert key(x) != key(s[0]);
      assert KeyClass(s, key, k) == (if key(s[0]) == k then [s[0]] else []) + KeyClass(s[1..], key, k);
    }
  }

  /** Stability: sorting keeps the elements of equal key in their original
      order, so within one key value the sorted list is the input list. */
  lemma {:induction false} SortByIsStable<T>(s: seq<T>, key: T -> real, descending: bool, k: real)
    ensures KeyClass(SortBy(s, key, descending), key, k) == KeyClass(s, key, k)
  {
    if |s| > 0 {
      SortByIsStable(s[1..], key, descending, k);
      KeyClassInsert(s[0], SortBy(s[1..], key, descending), key, descending, k);
    }
  }

  /** Filtering a sorted list leaves it sorted. */
  lemma {:induction false} FilterSorted<T>(s: seq<T>, p: T -> bool, key: T -> real, descending: bool)
    requires SortedBy(s, key, descending)
    ensures SortedBy(Filter(s, p), key, descending)
  {
    if |s| > 0 {
      assert SortedBy(s[1..], key, descending);
      FilterSorted(s[1..], p, key, descending);
      var rest := Filter(s[1..], p);
      assert forall y :: y in rest ==> Precedes(key(s[0]), key(y), descending) by {
        forall y | y in rest
          ensures Precedes(key(s[0]), key(y), descending)
        {
          var j :| 0 <= j < |s[1..]| && s[1..][j] == y;
          assert s[j + 1] == y;
        }
      }
    }
  }

  /** A prefix of a sorted list is sorted, and every element it leaves out
      comes after every element it keeps. */
  lemma TakeOfSorted<T>(s: seq<T>, n: int, key: T -> real, descending: bool)
    requires SortedBy(s, key, descending)
    ensures SortedBy(Take(s, n), key, descending)
    ensures forall i, j :: 0 <= i < |Take(s, n)| <= j < |s| ==>
              Precedes(key(Take(s, n)[i]), key(s[j]), descending)
  {
  }

  /** An element of a sorted list that `s[:n]` leaves out is preceded by
      every element it keeps. */
  lemma LeftOutFollows<T>(s: seq<T>, n: int, key: T -> real, descending: bool, x: T)
    requires SortedBy(s, key, descending)
    requires x in s && x !in Take(s, n)
    ensures forall i :: 0 <= i < |Take(s, n)| ==> Precedes(key(Take(s, n)[i]), key(x), descending)
    ensures n >= 0 ==> |Take(s, n)| == n
  {
    var t := Take(s, n);
    var j :| 0 <= j < |s| && s[j] == x;
    assert j >= |t|;
  }
}

=== FILE: text.dfy ===
/** The string operations of Python's `str` that the system relies on. */
module Text {

  /** `s.endswith(suffix)`. */
  predicate EndsWith(s: string, suffix: string) {
    |suffix| <= |s| && s[|s| - |suffix|..] == suffix
  }

  /** A string whose last character differs from the suffix's last
      character does not end with it. */
  lemma LastCharNotSuffix(s: string, suffix: string)
    requires |s| > 0 && |suffix| > 0
    requires s[|s| - 1] != suffix[|suffix| - 1]
    ensures !EndsWith(s, suffix)
  {
    if |suffix| <= |s| {
      assert s[|s| - |suffix|..][|suffix| - 1] == s[|s| - 1];
    }
  }

  /** `s.replace(pat, "")`: a left-to-right scan that drops every
      non-overlapping occurrence of `pat` it meets. */
  function RemoveAll(s: string, pat: string): (r: string)
    requires |pat| > 0
    ensures |r| <= |s|
    decreases |s|
  {
    if |s| < |pat| then s
    else if s[..|pat|] == pat then RemoveAll(s[|pat|..], pat)
    else [s[0]] + RemoveAll(s[1..], pat)
  }

  /** A string in which the first character of `pat` never occurs holds no
      occurrence of `pat`, so nothing is removed from it. */
  lemma {:induction false} RemoveAllAbsent(s: string, pat: string)
    requires |pat| > 0
    requires pat[0] !in s
    ensures RemoveAll(s, pat) == s
    decreases |s|
  {
    if |s| >= |pat| {
      assert s[0] != pat[0];
      assert s[..|pat|] != pat;
      RemoveAllAbsent(s[1..], pat);
      assert [s[0]] + s[1..] == s;
    }
  }

  /** More generally, a string missing any one character of `pat` is left
      unchanged. */
  lemma {:induction false} RemoveAllMissing(s: string, pat: string, j: int)
    requires 0 <= j < |pat|
    requires pat[j] !in s
    ensures RemoveAll(s, pat) == s
    decreases |s|
  {
    if |s| >= |pat| {
      assert s[..|pat|][j] == s[j] != pat[j];
      RemoveAllMissing(s[1..], pat, j);
      assert [s[0]] + s[1..] == s;
    }
  }

  /** Appending `pat` to a string that cannot start an occurrence of it is
      undone by `RemoveAll`: `"TCS" + ".NS"` strips back to `"TCS"`. */
  lemma {:induction false} RemoveAllSuffix(x: string, pat: string)
    requires |pat| > 0
    requires pat[0] !in x
    ensures RemoveAll(x + pat, pat) == x
    decreases |x|
  {
    var s := x + pat;
    if |x| == 0 {
      assert s == pat;
      assert s[..|pat|] == pat;
      assert s[|pat|..] == [];
    } else {
      assert s[0] == x[0] != pat[0];
      assert s[..|pat|] != pat;
      assert s[1..] == x[1..] + pat;
      RemoveAllSuffix(x[1..], pat);
      assert [x[0]] + x[1..] == x;
    }
  }

  /** Removing a one-character pattern leaves none of that character. */
  lemma {:induction false} RemoveAllChar(s: string, c: char)
    ensures c !in RemoveAll(s, [c])
    decreases |s|
  {
    if |s| >= 1 {
      RemoveAllChar(s[1..], c);
      if s[..1] != [c] {
        assert s[0] != c;
      }
    }
  }

  /** Python's `upper()` restricted to ASCII letters. */
  function UpperChar(c: char): char {
    if 'a' <= c <= 'z' then (c as int - 32) as char else c
  }

  predicate IsLowerAscii(c: char) {
    'a' <= c <= 'z'
  }

  /** `s.upper()` on ASCII text. */
  function Upper(s: string): (r: string)
    ensures |r| == |s|
    ensures forall i :: 0 <= i < |r| ==> !IsLowerAscii(r[i])
    ensures forall i :: 0 <= i < |r| && !IsLowerAscii(s[i]) ==> r[i] == s[i]
  {
    seq(|s|, i requires 0 <= i < |s| => UpperChar(s[i]))
  }

  /** Text without lower-case ASCII letters is left alone. */
  lemma UpperOfUpperText(s: string)
    requires forall i :: 0 <= i < |s| ==> !IsLowerAscii(s[i])
    ensures Upper(s) == s
  {
  }

  predicate IsDigit(c: char) {
    '0' <= c <= '9'
  }

  function DigitChar(d: int): (c: char)
    requires 0 <= d < 10
    ensures IsDigit(c) && c as int - '0' as int == d
  {
    ('0' as int + d) as char
  }

  /** The decimal digits of `n`, most significant first, as `str(n)` writes
      them for a non-negative integer. */
  function NatToString(n: nat): (r: string)
    ensures |r| > 0
    ensures forall i :: 0 <= i < |r| ==> IsDigit(r[i])
    decreases n
  {
    if n < 10 then [DigitChar(n)] else NatToString(n / 10) + [DigitChar(n % 10)]
  }

  /** `str(n)` for any integer: a minus sign before the digits of `-n`. */
  function IntToString(n: int): (r: string)
    ensures |r| > 0
    ensures r[0] == '-' <==> n < 0
  {
    if n < 0 then "-" + NatToString(-n) else NatToString(n)
  }

  /** The value of a string of decimal digits, read most significant first. */
  function DigitsValue(s: string): int
    decreases |s|
  {
    if |s| == 0 then 0 else DigitsValue(s[..|s| - 1]) * 10 + (s[|s| - 1] as int - '0' as int)
  }

  /** Reading back the digits of `n` gives `n`, and they carry no leading
      zero: `str` is the canonical decimal form. */
  lemma {:induction false} NatToStringValue(n: nat)
    ensures DigitsValue(NatToString(n)) == n
    ensures NatToString(n)[0] == '0' ==> n == 0
    decreases n
  {
    var r := NatToString(n);
    if n >= 10 {
      NatToStringValue(n / 10);
      var p := NatToString(n / 10);
      assert r == p + [DigitChar(n % 10)];
      assert r[..|r| - 1] == p;
      assert r[0] == p[0];
    }
  }

  /** `IntToString` is one-to-one: distinct integers print differently. */
  lemma IntToStringInjective(a: int, b: int)
    requires IntToString(a) == IntToString(b)
    ensures a == b
  {
    if a < 0 {
      var s := IntToString(a);
      assert s[1..] == NatToString(-a);
      NatToStringValue(-a);
      NatToStringValue(-b);
    } else {
      NatToStringValue(a);
      NatToStringValue(b);
    }
  }
}

=== FILE: values.dfy ===
/** Value shapes shared by the model: Python's optional `None` and the three
    states a key of a decoded JSON object can be in. */
module Values {

  /** A value that may be Python's `None`. */
  datatype Option<+T> = None | Some(value: T)

  /** One key of a decoded JSON object: missing, present with JSON `null`
      (Python `None`), or present with a value. The difference matters to
      `dict.get(key, default)`, which only falls back to `default` when the
      key is missing. */
  datatype Field<+T> = Absent | Null | Present(value: T) {

    /** `d.get(key)`: `None` both when the key is missing and when it is null. */
    function Get(): Option<T> {
      match this
      case Present(v) => Some(v)
      case _ => None
    }

    /** `d.get(key, default)`: the default only replaces a missing key. */
    function GetDefault(default: T): Option<T> {
      match this
      case Absent => Some(default)
      case Null => None
      case Present(v) => Some(v)
    }
  }

  /** An exception a connector catches and reports: one the HTTP layer
      raised, described by its text, or the Python error the processing of
      a response raised. */
  datatype Fault = Transport(reason: string) | TypeError | AttributeError | IndexError | ValueError

  /** A value, or the exception computing it raised. */
  datatype Result<+T> = Ok(value: T) | Err(fault: Fault)
}

=== FILE: yahoo.dfy ===
/** The pure part of the Yahoo Finance connector of `NSEDataFetcher`
    (`get_stock_quote_yahoo` and `get_historical_data_yahoo`): what is done
    with a decoded chart response. The HTTP call is the parameter `fetch`;
    every exception the connector catches becomes a `Failure`. */
module YahooFinance {
  import opened Values
  import Text

  const Source: string := "Yahoo Finance"
  const NoDataError: string := "No data available"

  /** `if not symbol.endswith('.NS'): symbol = f"{symbol}.NS"`. */
  function YahooSymbol(symbol: string): (r: string)
    ensures Text.EndsWith(r, ".NS")
    ensures r == symbol <==> Text.EndsWith(symbol, ".NS")
    ensures r != symbol ==> r == symbol + ".NS"
  {
    if Text.EndsWith(symbol, ".NS") then symbol
    else
      assert (symbol + ".NS")[|symbol|..] == ".NS";
      symbol + ".NS"
  }

  /** Normalising twice is normalising once. */
  lemma YahooSymbolIdempotent(symbol: string)
    ensures YahooSymbol(YahooSymbol(symbol)) == YahooSymbol(symbol)
  {
  }

  /** A chart request: the symbol and the `range` query parameter (the
      interval is always one day). */
  datatype Request = ChartRequest(symbol: string, range: string)

  /** The part of a decoded chart response the connector reads. */
  datatype Meta = Meta(
    regularMarketPrice: Field<real>,
    previousClose: Field<real>,
    regularMarketVolume: Field<int>,
    currency: Field<string>,
    exchangeName: Field<string>,
    regularMarketTime: Field<int>)

  /** `indicators.quote[0]`: the parallel per-day arrays; an entry may be null. */
  datatype QuoteColumns = QuoteColumns(
    open: Field<seq<Option<real>>>,
    high: Field<seq<Option<real>>>,
    low: Field<seq<Option<real>>>,
    close: Field<seq<Option<real>>>,
    volume: Field<seq<Option<int>>>)

  datatype Indicators = Indicators(quote: Field<seq<Option<QuoteColumns>>>)

  datatype ChartResult = ChartResult(meta: Field<Meta>, timestamp: Field<seq<int>>, indicators: Field<Indicators>)

  datatype Chart = Chart(result: Field<seq<ChartResult>>)

  datatype Body = Body(chart: Field<Chart>)

  /** What the HTTP layer hands back: a failure (connection error, a bad
      status, undecodable JSON), described by the exception's text, or a
      decoded body. */
  datatype Response = Failed(reason: string) | Received(body: Body)

  /** `datetime.fromtimestamp(...)` of the market time, or of `time.time()`
      when the key is missing. */
  datatype Stamp = MarketTime(seconds: int) | ClockNow

  /** Seconds from the epoch to 0001-01-01T00:00:00 and to
      9999-12-31T23:59:59, in UTC: the instants `datetime` can represent. */
  const MinTimestamp: int := -62135596800
  const MaxTimestamp: int := 253402300799

  /** `datetime.fromtimestamp(t)` returns instead of raising. */
  predicate Representable(t: int) {
    MinTimestamp <= t <= MaxTimestamp
  }

  datatype LiveQuote = LiveQuote(
    symbol: string,
    price: Option<real>,
    previousClose: Option<real>,
    change: real,
    changePercent: real,
    volume: Option<int>,
    currency: Option<string>,
    exchange: Option<string>,
    timestamp: Stamp,
    source: string)

  /** The three shapes of `get_stock_quote_yahoo`'s result. */
  datatype QuoteOutcome =
    | Quoted(quote: LiveQuote)
    | NoData(error: string, symbol: string)
    | Failure(fault: Fault, symbol: string, source: string)
  {
    function Symbol(): string {
      match this
      case Quoted(q) => q.symbol
      case NoData(_, s) => s
      case Failure(_, s, _) => s
    }
  }

  /** The first chart result, if the guard
      `'chart' in data and 'result' in data['chart'] and data['chart']['result']`
      lets one through. */
  datatype Selection = Picked(result: ChartResult) | Nothing | Raised(fault: Fault)

  function FirstResult(body: Body): (r: Selection)
    ensures r.Raised? <==> body.chart.Null?
    ensures r.Picked? <==> body.chart.Present? && body.chart.value.result.Present? && |body.chart.value.result.value| > 0
    ensures r.Picked? ==> r.result == body.chart.value.result.value[0]
  {
    match body.chart
    case Absent => Nothing
    case Null => Raised(TypeError)
    case Present(c) =>
      match c.result
      case Present(rs) => if |rs| > 0 then Picked(rs[0]) else Nothing
      case _ => Nothing
  }

  /** `meta.get(key, 0)` on a price: the value, zero when missing, `None`
      when null. */
  function NumberOrZero(f: Field<real>): Option<real> {
    f.GetDefault(0.0)
  }

  /** `bool(meta.get('previousClose'))`: present and non-zero. */
  predicate Truthy(f: Field<real>) {
    f.Present? && f.value != 0.0
  }

  /** `change_percent`: the change over the previous close, in percent,
      when the previous close is truthy, and 0 otherwise. */
  function PercentChange(change: real, previousClose: Field<real>): (r: real)
    ensures Truthy(previousClose) ==> r * previousClose.value == change * 100.0
    ensures !Truthy(previousClose) ==> r == 0.0
  {
    if Truthy(previousClose) then change / previousClose.value * 100.0 else 0.0
  }

  /** The quote a meta object yields. `None - x` and `datetime.fromtimestamp(None)`
      raise `TypeError`; a market time outside `datetime`'s range raises
      `ValueError`. The change is computed before the timestamp. */
  function QuoteFromMeta(symbol: string, m: Meta): (r: QuoteOutcome)
    ensures r.Quoted? || r.Failure?
    ensures r.Symbol() == symbol
  {
    match (NumberOrZero(m.regularMarketPrice), NumberOrZero(m.previousClose), m.regularMarketTime)
    case (Some(p), Some(pc), Absent) => Quoted(MetaQuote(symbol, m, p - pc, ClockNow))
    case (Some(p), Some(pc), Present(t)) =>
      if Representable(t) then Quoted(MetaQuote(symbol, m, p - pc, MarketTime(t)))
      else Failure(ValueError, symbol, Source)
    case _ => Failure(TypeError, symbol, Source)
  }

  function MetaQuote(symbol: string, m: Meta, change: real, stamp: Stamp): LiveQuote {
    LiveQuote(
      symbol,
      m.regularMarketPrice.Get(),
      m.previousClose.Get(),
      change,
      PercentChange(change, m.previousClose),
      m.regularMarketVolume.Get(),
      m.currency.GetDefault("INR"),
      m.exchangeName.GetDefault("NSE"),
      stamp,
      Source)
  }

  /** The meta object `result.get('meta', {})` gives when the key is missing. */
  const EmptyMeta: Meta := Meta(Absent, Absent, Absent, Absent, Absent, Absent)

  /** `get_stock_quote_yahoo(symbol)`. */
  function StockQuote(symbol: string, fetch: Request -> Response): (r: QuoteOutcome)
    ensures r.Symbol() == YahooSymbol(symbol)
    ensures r.NoData? <==>
              && fetch(ChartRequest(YahooSymbol(symbol), "1d")).Received?
              && FirstResult(fetch(ChartRequest(YahooSymbol(symbol), "1d")).body).Nothing?
    ensures r.NoData? ==> r.error == NoDataError
  {
    var s := YahooSymbol(symbol);
    match fetch(ChartRequest(s, "1d"))
    case Failed(reason) => Failure(Transport(reason), s, Source)
    case Received(body) => QuoteFromBody(s, body)
  }

  function QuoteFromBody(s: string, body: Body): (r: QuoteOutcome)
    ensures r.Symbol() == s
    ensures r.NoData? <==> FirstResult(body).Nothing?
    ensures r.NoData? ==> r == NoData(NoDataError, s)
  {
    match FirstResult(body)
    case Nothing => NoData(NoDataError, s)
    case Raised(f) => Failure(f, s, Source)
    case Picked(res) =>
      match res.meta
      case Absent => QuoteFromMeta(s, EmptyMeta)
      case Null => Failure(AttributeError, s, Source)
      case Present(m) => QuoteFromMeta(s, m)
  }

  /** The change arithmetic of a quote: the change is the price less the
      previous close, either read as 0 when missing; the change percent
      relates the change to a truthy previous close and is 0 otherwise, so
      nothing is ever divided by zero. */
  lemma QuoteChangeArithmetic(symbol: string, m: Meta)
    requires QuoteFromMeta(symbol, m).Quoted?
    ensures var q := QuoteFromMeta(symbol, m).quote;
      && q.change == m.regularMarketPrice.GetDefault(0.0).value - m.previousClose.GetDefault(0.0).value
      && (Truthy(m.previousClose) ==> q.changePercent * m.previousClose.value == q.change * 100.0)
      && (!Truthy(m.previousClose) ==> q.changePercent == 0.0)
      && q.price == m.regularMarketPrice.Get() && q.previousClose == m.previousClose.Get()
  {
  }

  /** A meta object fails exactly when the price, the previous close or the
      market time is null, with a `TypeError`, or else when the market time
      lies outside `datetime`'s range, with a `ValueError`. */
  lemma QuoteFromMetaFails(symbol: string, m: Meta)
    ensures QuoteFromMeta(symbol, m).Failure? <==>
              || m.regularMarketPrice.Null? || m.previousClose.Null? || m.regularMarketTime.Null?
              || (m.regularMarketTime.Present? && !Representable(m.regularMarketTime.value))
    ensures QuoteFromMeta(symbol, m).Failure? ==>
              QuoteFromMeta(symbol, m).fault ==
                if m.regularMarketPrice.Null? || m.previousClose.Null? || m.regularMarketTime.Null?
                then TypeError else ValueError
  {
  }

  /** A market time of 10^12 seconds, in the year 33658, is out of range. */
  lemma FarFutureTimeFails(symbol: string, m: Meta)
    requires m.regularMarketPrice.Present? && m.previousClose.Present?
    requires m.regularMarketTime == Present(1_000_000_000_000)
    ensures QuoteFromMeta(symbol, m) == Failure(ValueError, symbol, Source)
  {
  }

  /** Missing keys take the connector's defaults: no price, no previous
      close, zero change, INR on NSE, stamped with the clock. */
  lemma EmptyMetaDefaults(symbol: string)
    ensures QuoteFromMeta(symbol, EmptyMeta) ==
              Quoted(LiveQuote(symbol, None, None, 0.0, 0.0, None, Some("INR"), Some("NSE"), ClockNow, Source))
  {
  }

  /** One row of `get_historical_data_yahoo`: the date and the five cells. */
  datatype HistBar = HistBar(time: int, open: Option<real>, high: Option<real>, low: Option<real>, close: Option<real>, volume: Option<int>)

  datatype HistoryOutcome =
    | YahooHistory(symbol: string, period: string, data: seq<HistBar>, count: int, source: string)
    | HistoryNoData(error: string, symbol: string)
    | HistoryFailure(fault: Fault, symbol: string, source: string)

  /** `col[i] if i < len(col) else None`. */
  function Cell<T>(col: seq<Option<T>>, i: int): Option<T> {
    if 0 <= i < |col| then col[i] else None
  }

  /** The five resolved columns of the bars. */
  datatype Columns = Columns(
    open: seq<Option<real>>,
    high: seq<Option<real>>,
    low: seq<Option<real>>,
    close: seq<Option<real>>,
    volume: seq<Option<int>>)

  /** One bar per timestamp, each cell read from its column by position. */
  function Bars(ts: seq<int>, c: Columns): (r: seq<HistBar>)
    ensures |r| == |ts|
  {
    seq(|ts|, i requires 0 <= i < |ts| =>
      HistBar(ts[i], Cell(c.open, i), Cell(c.high, i), Cell(c.low, i), Cell(c.close, i), Cell(c.volume, i)))
  }

  /** A column cut or padded with `None` to `n` entries. */
  function Fit<T>(col: seq<Option<T>>, n: nat): (r: seq<Option<T>>)
    ensures |r| == n
    decreases n
  {
    if n == 0 then []
    else Fit(col, n - 1) + [if n - 1 < |col| then col[n - 1] else None]
  }

  function OpenColumn(bars: seq<HistBar>): seq<Option<real>> {
    seq(|bars|, i requires 0 <= i < |bars| => bars[i].open)
  }

  function HighColumn(bars: seq<HistBar>): seq<Option<real>> {
    seq(|bars|, i requires 0 <= i < |bars| => bars[i].high)
  }

  function LowColumn(bars: seq<HistBar>): seq<Option<real>> {
    seq(|bars|, i requires 0 <= i < |bars| => bars[i].low)
  }

  function CloseColumn(bars: seq<HistBar>): seq<Option<real>> {
    seq(|bars|, i requires 0 <= i < |bars| => bars[i].close)
  }

  function VolumeColumn(bars: seq<HistBar>): seq<Option<int>> {
    seq(|bars|, i requires 0 <= i < |bars| => bars[i].volume)
  }

  /** Reading a column back out of the bars gives the column fitted to the
      number of timestamps: the bars lose nothing of the arrays up to that
      length and invent nothing beyond it. */
  lemma {:induction false} FitByCell<T>(col: seq<Option<T>>, n: nat)
    ensures forall i :: 0 <= i < n ==> Fit(col, n)[i] == Cell(col, i)
    decreases n
  {
    if n > 0 {
      FitByCell(col, n - 1);
      assert forall i :: 0 <= i < n - 1 ==> Fit(col, n)[i] == Fit(col, n - 1)[i];
    }
  }

  lemma BarsKeepColumns(ts: seq<int>, c: Columns)
    ensures OpenColumn(Bars(ts, c)) == Fit(c.open, |ts|)
    ensures HighColumn(Bars(ts, c)) == Fit(c.high, |ts|)
    ensures LowColumn(Bars(ts, c)) == Fit(c.low, |ts|)
    ensures CloseColumn(Bars(ts, c)) == Fit(c.close, |ts|)
    ensures VolumeColumn(Bars(ts, c)) == Fit(c.volume, |ts|)
    ensures forall i :: 0 <= i < |ts| ==> Bars(ts, c)[i].time == ts[i]
  {
    FitByCell(c.open, |ts|);
    FitByCell(c.high, |ts|);
    FitByCell(c.low, |ts|);
    FitByCell(c.close, |ts|);
    FitByCell(c.volume, |ts|);
  }

  /** `quote.get(name, [])` read inside the loop: the column, empty when
      missing, `None` when null (whose `len` raises `TypeError`). */
  function ResolveColumns(q: QuoteColumns): Option<Columns> {
    match (q.open.GetDefault([]), q.high.GetDefault([]), q.low.GetDefault([]), q.close.GetDefault([]), q.volume.GetDefault([]))
    case (Some(o), Some(h), Some(l), Some(c), Some(v)) => Some(Columns(o, h, l, c, v))
    case _ => None
  }

  const NoColumns: QuoteColumns := QuoteColumns(Absent, Absent, Absent, Absent, Absent)

  /** The bars of a chart result, or the exception reading it raises:
      `indicators.get('quote', [{}])[0]` first, then the loop over the
      timestamps, which only touches the columns when there is a row. */
  function HistoryRows(res: ChartResult): (r: Result<seq<HistBar>>)
    ensures r.Ok? ==> res.timestamp.Present? || res.timestamp.Absent?
    ensures r.Ok? ==> |r.value| == |res.timestamp.GetDefault([]).value|
  {
    match res.indicators
    case Null => Err(AttributeError)
    case Absent => RowsFrom(res.timestamp, Some(NoColumns))
    case Present(ind) =>
      match ind.quote
      case Absent => RowsFrom(res.timestamp, Some(NoColumns))
      case Null => Err(TypeError)
      case Present(qs) => if |qs| == 0 then Err(IndexError) else RowsFrom(res.timestamp, qs[0])
  }

  /** The loop over the timestamps. Each row formats its date before it
      reads the columns, so the first date out of range is reported before
      a broken column, and a broken column before any later date. */
  function RowsFrom(timestamps: Field<seq<int>>, quote: Option<QuoteColumns>): (r: Result<seq<HistBar>>)
    ensures r.Ok? ==> (timestamps.Present? || timestamps.Absent?) && |r.value| == |timestamps.GetDefault([]).value|
    ensures r.Ok? && timestamps.Present? ==> AllRepresentable(timestamps.value)
    ensures timestamps.Present? && |timestamps.value| > 0 && !Representable(timestamps.value[0]) ==> r == Err(ValueError)
  {
    match timestamps
    case Null => Err(TypeError)
    case Absent => Ok([])
    case Present(ts) =>
      if |ts| == 0 then Ok([])
      else if !Representable(ts[0]) then Err(ValueError)
      else
        match quote
        case None => Err(AttributeError)
        case Some(q) =>
          match ResolveColumns(q)
          case None => Err(TypeError)
          case Some(c) => if AllRepresentable(ts) then Ok(Bars(ts, c)) else Err(ValueError)
  }

  /** Every date of the series can be formatted. */
  predicate AllRepresentable(ts: seq<int>) {
    forall i :: 0 <= i < |ts| ==> Representable(ts[i])
  }

  /** `get_historical_data_yahoo(symbol, period)`. */
  function HistoricalData(symbol: string, period: string, fetch: Request -> Response): (r: HistoryOutcome)
    ensures r.YahooHistory? ==> r.count == |r.data| && r.symbol == YahooSymbol(symbol) && r.period == period
    ensures var resp := fetch(ChartRequest(YahooSymbol(symbol), period));
              r.HistoryNoData? <==> resp.Received? && FirstResult(resp.body).Nothing?
    ensures r.HistoryNoData? ==> r == HistoryNoData(NoDataError, YahooSymbol(symbol))
    ensures var resp := fetch(ChartRequest(YahooSymbol(symbol), period));
              r.YahooHistory? <==>
                && resp.Received? && FirstResult(resp.body).Picked?
                && HistoryRows(FirstResult(resp.body).result).Ok?
    ensures var resp := fetch(ChartRequest(YahooSymbol(symbol), period));
              r.YahooHistory? ==> HistoryRows(FirstResult(resp.body).result) == Ok(r.data)
    ensures var resp := fetch(ChartRequest(YahooSymbol(symbol), period));
              r.HistoryFailure? ==>
                && r.symbol == YahooSymbol(symbol) && r.source == Source
                && (resp.Failed? ==> r.fault == Transport(resp.reason))
  {
    var s := YahooSymbol(symbol);
    match fetch(ChartRequest(s, period))
    case Failed(reason) => HistoryFailure(Transport(reason), s, Source)
    case Received(body) =>
      match FirstResult(body)
      case Nothing => HistoryNoData(NoDataError, s)
      case Raised(f) => HistoryFailure(f, s, Source)
      case Picked(res) =>
        match HistoryRows(res)
        case Err(f) => HistoryFailure(f, s, Source)
        case Ok(data) => YahooHistory(s, period, data, |data|, Source)
  }

  /** A chart result with timestamps and all five arrays present yields one
      bar per timestamp, in order, whose columns are the arrays fitted to the
      number of timestamps, unless a date is out of range. */
  lemma HistoryFromArrays(res: ChartResult, ts: seq<int>, q: QuoteColumns, c: Columns)
    requires res.timestamp == Present(ts)
    requires res.indicators.Present? && res.indicators.value.quote.Present?
    requires |res.indicators.value.quote.value| > 0 && res.indicators.value.quote.value[0] == Some(q)
    requires ResolveColumns(q) == Some(c)
    ensures HistoryRows(res) == if AllRepresentable(ts) then Ok(Bars(ts, c)) else Err(ValueError)
    ensures |Bars(ts, c)| == |ts|
    ensures OpenColumn(Bars(ts, c)) == Fit(c.open, |ts|)
    ensures HighColumn(Bars(ts, c)) == Fit(c.high, |ts|)
    ensures LowColumn(Bars(ts, c)) == Fit(c.low, |ts|)
    ensures CloseColumn(Bars(ts, c)) == Fit(c.close, |ts|)
    ensures VolumeColumn(Bars(ts, c)) == Fit(c.volume, |ts|)
  {
    if |ts| == 0 {
      assert Bars(ts, c) == [];
    }
    BarsKeepColumns(ts, c);
  }

  /** With no timestamps the loop never runs, so a null or missing column
      raises nothing and the series is empty. */
  lemma NoTimestampsNoRows(res: ChartResult)
    requires res.timestamp == Present([]) || res.timestamp == Absent
    requires res.indicators.Present? && res.indicators.value.quote.Present?
    requires |res.indicators.value.quote.value| > 0
    ensures HistoryRows(res) == Ok([])
  {
  }
}
